=== FILE: README.md ===
# Login account manager: a Dafny model

This project models the account core of the login server of a SWGEmu-derived MMO
server (`AccountManager.cpp`). It covers four pieces.

- **The identity-keyed account cache.** These are the `getAccount` overloads. An
  account lives in the object broker under the oid
  `accountID | (databaseID << 48)`. A lookup that misses asks the object factory
  for a blank object under that oid. A hit is returned as it is, unless a refresh
  is forced or the object was never loaded from SQL. A refresh overwrites the
  object from the first matching row of the `accounts` table.
- **The credential-validation gates.** `validateAccountCredentials` runs these
  gates in order:
  1. look the username up, or auto-register it;
  2. check that the account is active;
  3. compare the password hash, using SHA-1 for unsalted legacy rows and salted
     SHA-256 otherwise;
  4. migrate a legacy hash (`updateHash`);
  5. check the ban.

  Account creation is `createAccount`.
- **The ban breakdown.** The seconds left on a ban are broken into days, hours,
  minutes and seconds. Zero days, hours and minutes are left out of the printed
  text.
- **Approval and session issuance.** `loginAccount` checks the client version,
  validates, and asks the session authority for approval. The authority's verdict
  runs the continuation. An allowing verdict runs `loginApprovedAccount`, which
  does the following in order:
  1. sends the token;
  2. sets the client's account id;
  3. notifies the session authority that a session started;
  4. writes the session row, a REPLACE that expires fifteen minutes later;
  5. writes the `account_log` row, only if the REPLACE succeeded;
  6. sends the cluster list, the cluster status and the character enumeration.

## How it is modelled

- **Database.** The database is a value (`Common.Db`):
  - the accounts table is an ordered sequence of rows;
  - the sessions table is a map keyed by account id;
  - the account log is an append-only sequence.

  A `SELECT ... LIMIT 1` is `AccountTable.FirstMatch`.
- **Broker.** The broker is a map from oid to `Account` value. Callers receive the
  oid, which plays the role of the shared object's handle.
- **Operations.** Every operation is a pure function. It returns the new state and
  an effect trace (`Common.Effect`), which holds three kinds of entry:
  - messages sent to the client;
  - SQL statements, each with whether it committed;
  - log lines.
- **Collaborators.** Hash functions, string escaping, the version check and the
  configuration are fields of `Credentials.Env`.
- **Inputs.** Random values and the outcome of each database statement are
  inputs:
  - the station id, the salts and the INSERT's generated id, in `Credentials.Draws`;
  - whether the migration UPDATE commits, also in `Credentials.Draws`;
  - the session id and whether each issuance statement commits, in
    `Sessions.IssueInputs`.
- **Account ids.** Account ids are `bv32` and oids are `bv64`, as the C++
  `uint32`/`uint64` are.
- **The two defects.** The two defects under "## Findings" are modelled both as
  written and corrected, through `Credentials.Variant`. `Login.LoginAccount` takes
  the variant as a parameter. The lemmas about validation take the variant as a
  parameter too. The exceptions are the lemmas about the gate chain after
  lookup (`CheckAccount`), which does not depend on the variant, and the pairs
  under "## Findings", which state the as-written side and the corrected side
  separately.

## Model

| member | source | states |
|---|---|---|
| ObjectIds.PackOid | MMOCoreORB/src/server/login/account/AccountManager.cpp:279-281 | the low 48 bits of the oid are the account id, and the top 16 bits are the database id's low 16 bits |
| ObjectIds.UnpackPack | MMOCoreORB/src/server/login/account/AccountManager.cpp:339-342 | the account id can be read back from the oid's low bits |
| ObjectIds.PackIsSum | MMOCoreORB/src/server/login/account/AccountManager.cpp:281 | for a database id below 2^16, the OR is a non-wrapping addition of the account id and databaseID * 2^48 |
| ObjectIds.PackInjective | MMOCoreORB/src/server/login/account/AccountManager.cpp:342 | within one database id, two accounts share an oid exactly when their ids are equal |
| ObjectIds.PackIgnoresHighDatabaseBits | MMOCoreORB/src/server/login/account/AccountManager.cpp:281 | the 48-bit shift discards every database-id bit above the 16th |
| AccountTable.FirstMatch | MMOCoreORB/src/server/login/account/AccountManager.cpp:336-338 | `LIMIT 1` yields nothing exactly when no row matches; otherwise it yields a matching row with no match before it |
| AccountTable.UpdatePasswordWhere | MMOCoreORB/src/server/login/account/AccountManager.cpp:237-243 | the UPDATE rewrites the password and salt of every row with the username and leaves every other row unchanged |
| AccountTable.FirstMatchAfterUpdate | MMOCoreORB/src/server/login/account/AccountManager.cpp:237-243 | after the UPDATE, a lookup by the username finds the same row, now holding the new hash and salt |
| AccountTable.FirstMatchAppendFresh | MMOCoreORB/src/server/login/account/AccountManager.cpp:256-269 | after an INSERT with an unused id, a lookup by that id finds the inserted row |
| AccountTable.FirstMatchAppendKeeps | MMOCoreORB/src/server/login/account/AccountManager.cpp:256-262 | an INSERT does not change what an earlier successful lookup finds |
| AccountCache.GetAccountByQuery | MMOCoreORB/src/server/login/account/AccountManager.cpp:329-382 | No row: nullptr, and nothing changes. An object is created only on a broker miss the factory serves; a miss it cannot serve gives nullptr. A loaded object with no forced refresh is returned untouched. Otherwise the object is rewritten from the row and the stored hash is handed out. Other broker entries never change. The handle is the packed oid of the row's id. |
| AccountCache.GetAccountById | MMOCoreORB/src/server/login/account/AccountManager.cpp:272-320 | the broker is consulted before the query. A miss the factory cannot serve gives nullptr and no change. A loaded object with no forced refresh is returned untouched. Otherwise, with a row, the object is read from it through `a.active`. With no row the result is nullptr: an object already registered is left unchanged, and a miss leaves a blank, unloaded object registered. Other broker entries never change. |
| AccountCache.GetAccountByIdWithPassword | MMOCoreORB/src/server/login/account/AccountManager.cpp:322-327 | the by-id query lookup. No row: nullptr and no change. A miss the factory cannot serve gives nullptr. A loaded object with no forced refresh is returned untouched, and `passwordStored` is left as it was. Otherwise the object is read from the row through `a.active`, and `passwordStored` becomes the row's password. Other broker entries never change. |
| AccountCache.GetAccountByName | MMOCoreORB/src/server/login/account/AccountManager.cpp:384-395 | looks up the escaped name. An unknown name gives nullptr and no change. A miss the factory cannot serve gives nullptr. A loaded object with no forced refresh is returned untouched. Otherwise the object is read from the first matching row through `a.active`. The handle is the packed oid of that row's id, and other broker entries never change. |
| AccountCache.NameThenIdAgree | MMOCoreORB/src/server/login/account/AccountManager.cpp:283-296 | after a name lookup, resolving the found row's id without a forced refresh returns the same object and changes nothing |
| AccountCache.SecondResolutionReuses | MMOCoreORB/src/server/login/account/AccountManager.cpp:283-296 | resolving an id a second time yields the same object and creates none; without a forced refresh, nothing changes |
| BanTime.BreakDown | MMOCoreORB/src/server/login/account/AccountManager.cpp:198-207 | days, hours, minutes and seconds add back up to the total, with hours < 24 and minutes, seconds < 60 |
| BanTime.BreakDownUnique | MMOCoreORB/src/server/login/account/AccountManager.cpp:198-207 | any breakdown within those bounds that adds up to the total is the computed one |
| BanTime.ShownParts | MMOCoreORB/src/server/login/account/AccountManager.cpp:209-220 | each of days, hours and minutes is printed exactly when positive; the seconds are always printed, last; the parts come in the order days, hours, minutes, seconds, none twice |
| BanTime.RemainingLineEndsWithSeconds | MMOCoreORB/src/server/login/account/AccountManager.cpp:209-220 | the remaining-time line ends with the seconds left, " Seconds" and a line break, whatever units come before |
| BanTime.BanNoticeFrames | MMOCoreORB/src/server/login/account/AccountManager.cpp:197-222 | the rendered ban notice starts with the banner and ends with "Reason: " followed by the recorded reason |
| BanTime.BanPartsExample | MMOCoreORB/src/server/login/account/AccountManager.cpp:209-220 | 3661 seconds prints as 1 hour, 1 minute, 1 second, with no day part |
| BanTime.DecimalRoundTrip | MMOCoreORB/src/server/login/account/AccountManager.cpp:212-220 | the printed digits of a count read back as the count |
| BanTime.IntToDecimalInjective | MMOCoreORB/src/server/login/account/AccountManager.cpp:212-220 | distinct counts print differently |
| Credentials.UpdateHash | MMOCoreORB/src/server/login/account/AccountManager.cpp:233-247 | Issues one UPDATE carrying a salted hash. A failure is logged and changes nothing. On commit, the user's rows take the new salt and a hash that the same password verifies against; other rows are unchanged. |
| Credentials.CreateAccount | MMOCoreORB/src/server/login/account/AccountManager.cpp:249-270 | Issues one INSERT. A null result yields nullptr and no change. Otherwise the row is appended. For a fresh id the broker can serve, the new object reflects the row and `passwordStored` is the inserted row's hash. When the salt draw is non-empty, the creating password verifies against that hash. After an INSERT, the reload changes no other broker entry and keeps `factoryUp`. A broker miss the factory cannot serve gives nullptr with the broker and `passwordStored` unchanged. |
| Credentials.CheckAccount | MMOCoreORB/src/server/login/account/AccountManager.cpp:162-230 | accepted exactly when the object is active, the hash matches and it is not banned; the broker and the number of rows never change; earlier effects are kept as a prefix |
| Credentials.ValidateWith | MMOCoreORB/src/server/login/account/AccountManager.cpp:136-231 | an accepted account is in the broker, active and not banned; only auto-registration with a client adds a row; the null dereference is possible only as written |
| Credentials.ValidateAccountCredentials | MMOCoreORB/src/server/login/account/AccountManager.cpp:136-231 | as written: an accepted object is in the broker and not banned, and the outcome is never the corrected abort |
| Credentials.ValidateAccountCredentialsCorrected | MMOCoreORB/src/server/login/account/AccountManager.cpp:136-231 | corrected: an accepted object is in the broker and its active flag is set, and no null dereference occurs. The flag is set for an accepted object in both variants; the row-level difference is stated by Credentials.AcceptedRowReadsActive |
| Credentials.AcceptedRowReadsActive | MMOCoreORB/src/server/login/account/AccountManager.cpp:138-174 | for an existing username, acceptance implies the row's `active` column is set when corrected, and only a non-zero account id as written |
| Credentials.LookupFindsRow | MMOCoreORB/src/server/login/account/AccountManager.cpp:137-142 | the forced username lookup returns the row's oid, an object reflecting the row, and the row's hash |
| Credentials.UnknownUserNotRegistered | MMOCoreORB/src/server/login/account/AccountManager.cpp:144-159 | an unknown user, without auto-registration or without a client, gets the registration message (only if there is a client) and nothing is written |
| Credentials.UnknownUserRegistered | MMOCoreORB/src/server/login/account/AccountManager.cpp:144-147 | auto-registration appends exactly one row and issues no migration; the result is acceptance exactly when the schema default makes new rows active, and otherwise the inactive rejection |
| Credentials.InactiveRejectedFirst | MMOCoreORB/src/server/login/account/AccountManager.cpp:162-174 | an account read as inactive is rejected with the inactive texts before any password check, and nothing is written |
| Credentials.WrongPasswordRejected | MMOCoreORB/src/server/login/account/AccountManager.cpp:184-189 | a wrong password gets "Clave Erronea" with no migration and no ban check |
| Credentials.ExistingAccountAcceptedIff | MMOCoreORB/src/server/login/account/AccountManager.cpp:162-230 | an existing account is accepted exactly when it reads as active, its hash matches and it is not banned; acceptance sends no error |
| Credentials.ValidationOfExistingRow | MMOCoreORB/src/server/login/account/AccountManager.cpp:142-162 | validating an existing username is the gate chain run on the row's refreshed object and hash |
| Credentials.CheckAccountMigrates | MMOCoreORB/src/server/login/account/AccountManager.cpp:190-192 | migration is issued exactly for an active legacy account whose SHA-1 hash matched, and it is then the first effect |
| Credentials.MigrationExactlyWhenLegacyMatch | MMOCoreORB/src/server/login/account/AccountManager.cpp:176-192 | migration happens exactly on a legacy match; after a commit, the username's row holds the new salt and the SHA-256 hash; otherwise the database is unchanged |
| Credentials.CheckAccountBanned | MMOCoreORB/src/server/login/account/AccountManager.cpp:195-228 | a banned account that passes the other gates is rejected with "Cuenta baneada", the seconds left and the reason, sent last |
| Credentials.BannedLegacyAccountStillMigrated | MMOCoreORB/src/server/login/account/AccountManager.cpp:190-228 | migration precedes the ban check: a banned legacy account is rejected, yet its UPDATE is issued first |
| Credentials.LegacyThenSaltedLogin | MMOCoreORB/src/server/login/account/AccountManager.cpp:176-192 | in either variant, after a committed migration, the same password is accepted again through SHA-256, with no second migration and no write |
| Credentials.InactiveRowAcceptedAsWritten | MMOCoreORB/src/server/login/account/AccountManager.cpp:138-139 | as written, a row with `active` false and a non-zero id is accepted |
| Credentials.InactiveRowRejectedCorrected | MMOCoreORB/src/server/login/account/AccountManager.cpp:162-174 | corrected, a row with `active` false is always rejected as inactive |
| Credentials.FailedCreationDereferencesNull | MMOCoreORB/src/server/login/account/AccountManager.cpp:147-162 | as written, a failed INSERT during auto-registration reaches `account->isActive()` with nullptr |
| Credentials.FailedCreationAbortsCorrected | MMOCoreORB/src/server/login/account/AccountManager.cpp:147-162 | corrected, the same case returns nullptr with no message and no write |
| Sessions.SessionWrites | MMOCoreORB/src/server/login/account/AccountManager.cpp:117-128 | The REPLACE leaves one row per account, expiring 15 minutes later. The log INSERT is issued exactly when the REPLACE committed, and appends one row when it commits. After a committed REPLACE, the log INSERT names the same account and IP. A failure of either statement is logged, and nothing is sent to the client. |
| Sessions.LoginApprovedAccount | MMOCoreORB/src/server/login/account/AccountManager.cpp:96-134 | the trace starts with the token, the account id and the session-start notice, and ends with the cluster list, the cluster status and the character enumeration; accounts are unchanged |
| Sessions.IssuanceMessageOrder | MMOCoreORB/src/server/login/account/AccountManager.cpp:100-134 | the client receives exactly the token, the cluster list, the cluster status and the character enumeration, in that order, whatever the database does |
| Sessions.FailedReplaceSkipsLog | MMOCoreORB/src/server/login/account/AccountManager.cpp:125-130 | a failing REPLACE skips the account_log INSERT and leaves the database unchanged |
| Sessions.SecondSessionSupersedes | MMOCoreORB/src/server/login/account/AccountManager.cpp:117-119 | two issuances leave one session row for the account, the second one; other accounts' sessions are untouched |
| Sessions.OnApproval | MMOCoreORB/src/server/login/account/AccountManager.cpp:75-92 | A temporary failure is logged first. A cleared client or account handle does nothing but that log line: no message, no statement, no write. A denial sends only the verdict's title and message. An allowing verdict issues the session, starting with the token. |
| Sessions.TemporaryFailureOnlyLogs | MMOCoreORB/src/server/login/account/AccountManager.cpp:77-82 | the temporary-failure flag adds one log line in front and changes nothing else |
| Sessions.DenialSendsOnlyTheVerdict | MMOCoreORB/src/server/login/account/AccountManager.cpp:87-90 | a denial sends one error carrying the verdict's title and message, and writes nothing |
| Sessions.ApprovalIssuesSession | MMOCoreORB/src/server/login/account/AccountManager.cpp:92 | an allowing verdict with both handles set writes what session issuance writes and sends the same client messages |
| Login.LoginAccount | MMOCoreORB/src/server/login/account/AccountManager.cpp:53-75 | a wrong client version gets one "Login Error" and nothing else happens; approval is requested exactly for an accepted account, with its id and the client's IP |
| Login.LoginOfExistingAccount | MMOCoreORB/src/server/login/account/AccountManager.cpp:57-75 | for an existing escaped username, approval is requested exactly when the row reads as active, the escaped password's hash matches and the row is not banned; the request carries the row's id |
| Login.ApprovedLoginOpensSession | MMOCoreORB/src/server/login/account/AccountManager.cpp:72-134 | a login that requested approval, followed by an allowing verdict, leaves a session row for the account with the new session id, and the token is sent first |

## Left out

- BanTime.BreakDown: uses integer floor division, where the source divides
  `float`s and applies `floor`. Single precision holds every whole number of
  seconds only below 2^24 (16,777,216 s, about 194 days). Even in that range,
  agreement is not proved here, because each of the three divisions rounds.
  Above it the two can differ. For example, 16,847,999 s rounds to 16,848,000 =
  195 days exactly, so the source computes 195 days, a remainder of -1 s and
  then -1 hours. The model gives 194 days, 23 hours, 59 minutes and 59 seconds.
  The model's `0 <= hours` bound does not hold for the source in that range.
- `int totalBan`: the subtraction `getBanExpires() - time(0)` is unbounded here.
  32-bit overflow is not modelled.
- Locks (the manager's mutex and the account locker): the model is sequential.
- SQL: statement text, `Database::escapeString` and quoting are not modelled.
  - Escaping is an opaque function in `Credentials.Env`.
  - The lookup key is the text spliced into the WHERE clause.
- Database exceptions:
  - The SELECTs of the lookups and the INSERT of account creation are not
    inside a try block. A `DatabaseException` from any of them leaves
    `loginAccount` entirely. The model has no such outcome: a failed INSERT is
    only the nullptr result (`Draws.insertedId` is None).
  - Only the UPDATE of migration and the two statements of session issuance
    catch and log their failures, and those are modelled.
  - A nullptr result from the SELECTs of the lookups (lines 301 and 336) is
    not modelled. The source dereferences those results at lines 303 and 338
    without a check, although `createAccount` (line 264) treats nullptr from
    the same call as possible. The model assumes every SELECT returns a
    result set.
  - Credentials.CreateAccount: a nullptr INSERT result is modelled as "nothing
    was written": the statement is recorded as not committed and the state is
    unchanged. The source only learns that the result was null (line 264), not
    whether the row was inserted. `Credentials.FailedCreationAbortsCorrected`'s
    "no write" rests on this assumption.
- AccountTable.Matches: SQL `=` is modelled as exact string equality. MySQL
  compares under the column's collation, which may ignore case and trailing
  spaces.
- AccountTable.FirstMatch: `LIMIT 1` without `ORDER BY` is modelled as the first
  row in table order. SQL leaves the choice among several matching rows
  unspecified.
- Cryptography and randomness: SHA-1, SHA-256 and `Crypto::randomSalt` are
  opaque functions or inputs, and so are `System::random` and the session id.
- Unseen collaborators:
  - `Account::updateFromDatabase` and `isBanned` are in Account.h/.cpp, which is
    not part of this model. They are modelled as "marks the object loaded and
    takes the ban state from the row". In particular, `updateFromDatabase` is
    assumed not to reload the `active` column. The first finding depends on
    this assumption.
  - `ResultSet::getBoolean` is assumed to read a non-zero integer column as
    true (`AccountCache.Column0Flag`).
  - `isRequiredVersion` is an opaque predicate.
  - The generated id of the INSERT is an input, and so are the schema's
    defaults for `active` and `admin_level` of a new row.
  - Credentials.NewRow: a new row's creation time is fixed as `Env.now`, and
    its ban state as not banned. These are assumptions, not inputs: the schema
    default for `created` and the ban tables are not part of this model.
- Unseen types: the packet classes, `LoginClient`, `SessionAPIClient` and the
  object broker's internals are not part of this model. Their calls appear as
  effects in the trace.
- Credentials.UpdateHash: the promise that the password verifies against the
  migrated row holds only for a non-empty migration salt. With an empty salt,
  the row would again read as legacy.
- AccountCache.SecondResolutionReuses: the second result equals the first only
  when it is not nullptr. If the first result came from a cached object whose row
  has since gone, a forced second lookup finds no row and gives nullptr.
- Configuration and logging: `ConfigManager` values are fields of
  `Credentials.Env`. The log lines in the trace carry no text. Two kinds of log
  line are dropped altogether: the factory-miss `logger.error` of the lookups
  (lines 290 and 351) and the session-id `client->debug()` line (line 100).
- The constructor's table TRUNCATE is out of scope.
- The build switch `WITH_SESSION_API`: only the enabled variant is modelled.
- The `created` column: `UNIX_TIMESTAMP` read through `getUnsignedInt` is an
  unbounded integer here.

## Findings

| source | as written | input that shows it | evidently intended | confidence | as-written member | corrected member |
|---|---|---|---|---|---|---|
| MMOCoreORB/src/server/login/account/AccountManager.cpp:138 | the username query selects `a.account_id` as column 0, which `getBoolean(0)` reads as the active flag | a row with `active = 0`, account id 5, a matching password and no ban is accepted. This assumes two pieces of code not in this model: `getBoolean(0)` reads a non-zero integer as true, and `Account::updateFromDatabase` (line 376) does not reload `active` | column 0 is `a.active`, as in every other account query | not executed | Credentials.InactiveRowAcceptedAsWritten | Credentials.InactiveRowRejectedCorrected |
| MMOCoreORB/src/server/login/account/AccountManager.cpp:147-162 | a nullptr from `createAccount` falls through to `account->isActive()`. The nullptr comes from line 264, or from line 269 when the reload misses (`Credentials.CreateAccount` states that case) | an unknown username with auto-registration on, where the INSERT's query returns nullptr | validation returns nullptr when creation fails | not executed | Credentials.FailedCreationDereferencesNull | Credentials.FailedCreationAbortsCorrected |

=== FILE: account_cache.dfy ===
/** The identity-keyed account cache: the `getAccount` overloads of AccountManager.
    The object broker is a map from oid to the shared Account object; a lookup that
    misses asks the object factory for a blank object under that oid, which the
    broker then holds. Callers get back the oid, the handle of the shared object. */
module AccountCache {
  import opened Common
  import opened ObjectIds
  import opened AccountTable

  /** The in-memory Account object. `sqlLoaded` and `ban` are what the object's
      own database refresh (Account::updateFromDatabase) sets. */
  datatype Account = Account(
    active: bool,
    username: string,
    salt: string,
    accountId: AccountId,
    stationId: bv32,
    created: int,
    adminLevel: int,
    sqlLoaded: bool,
    ban: Ban)

  /** A freshly created object, before any row has been read into it. */
  const Blank := Account(false, "", "", 0, 0, 0, 0, false, NotBanned)

  /** The object broker, and whether the object factory can create accounts. */
  datatype Broker = Broker(objects: map<Oid, Account>, factoryUp: bool)

  /** What column 0 of a query holds: `a.active` in every query of the cache,
      `a.account_id` in the username query of credential validation. */
  datatype Column0 = ActiveColumn | AccountIdColumn

  /** A single-row SELECT of the accounts table. Columns 1 to 7 are always
      username, password, salt, account_id, station_id, created, admin_level. */
  datatype Query = Query(column0: Column0, key: Key)

  /** `result->getBoolean(0)`: a numeric column reads as true when non-zero. */
  function Column0Flag(c: Column0, row: Row): bool {
    match c
    case ActiveColumn => row.active
    case AccountIdColumn => row.accountId != 0
  }

  /** The object after its fields were written from `row` and refreshed. */
  function LoadRow(obj: Account, row: Row, c: Column0, accountId: AccountId): Account {
    obj.(active := Column0Flag(c, row), username := row.username, salt := row.salt,
         accountId := accountId, stationId := row.stationId, created := row.created,
         adminLevel := row.adminLevel, sqlLoaded := true, ban := row.ban)
  }

  /** The object holds exactly what `row` says, read through column 0 as `c`. */
  ghost predicate Reflects(obj: Account, row: Row, c: Column0) {
    && obj.active == Column0Flag(c, row)
    && obj.username == row.username
    && obj.salt == row.salt
    && obj.accountId == row.accountId
    && obj.stationId == row.stationId
    && obj.created == row.created
    && obj.adminLevel == row.adminLevel
    && obj.sqlLoaded
    && obj.ban == row.ban
  }

  /** Every broker entry other than `oid` is as it was, and none was dropped. */
  ghost predicate OthersUnchanged(before: Broker, after: Broker, oid: Oid) {
    && after.factoryUp == before.factoryUp
    && before.objects.Keys <= after.objects.Keys
    && after.objects.Keys <= before.objects.Keys + {oid}
    && forall o :: o in before.objects && o != oid ==> after.objects[o] == before.objects[o]
  }

  /** Result of the query-driven lookup: the object handle (None is `nullptr`),
      the in/out `passwordStored` argument, and the broker afterwards. */
  datatype Lookup = Lookup(account: Option<Oid>, passwordStored: string, broker: Broker)

  /** `getAccount(String query, String& passwordStored, bool forceSqlUpdate)`. */
  function GetAccountByQuery(databaseId: bv64, db: Db, broker: Broker, q: Query,
                             passwordStored: string, force: bool): (r: Lookup)
    // No row: nullptr, and nothing is touched.
    ensures FirstMatch(db.accounts, q.key).None? ==> r == Lookup(None, passwordStored, broker)
    ensures FirstMatch(db.accounts, q.key).Some? ==>
      var row := FirstMatch(db.accounts, q.key).value;
      var oid := PackOid(row.accountId, databaseId);
      && OthersUnchanged(broker, r.broker, oid)
      // An object is created only when the broker lookup misses.
      && (oid in r.broker.objects - broker.objects.Keys <==> oid !in broker.objects && broker.factoryUp)
      // A miss the factory cannot serve yields nullptr.
      && (oid !in broker.objects && !broker.factoryUp ==> r == Lookup(None, passwordStored, broker))
      // A loaded object that need not be refreshed is returned untouched.
      && (oid in broker.objects && broker.objects[oid].sqlLoaded && !force ==>
            r == Lookup(Some(oid), passwordStored, broker))
      // Otherwise the object is overwritten from the row and the hash handed out.
      && ((oid in broker.objects || broker.factoryUp) &&
          (oid !in broker.objects || !broker.objects[oid].sqlLoaded || force) ==>
            && r.account == Some(oid)
            && Reflects(r.broker.objects[oid], row, q.column0)
            && r.passwordStored == row.password)
    ensures r.account.Some? ==> r.account.value in r.broker.objects
    ensures r.account.Some? ==> && FirstMatch(db.accounts, q.key).Some?
                                && r.account.value == PackOid(FirstMatch(db.accounts, q.key).value.accountId, databaseId)
  {
    match FirstMatch(db.accounts, q.key)
    case None => Lookup(None, passwordStored, broker)
    case Some(row) =>
      var oid := PackOid(row.accountId, databaseId);
      if oid !in broker.objects && !broker.factoryUp then
        Lookup(None, passwordStored, broker)
      else if oid in broker.objects && !force && broker.objects[oid].sqlLoaded then
        Lookup(Some(oid), passwordStored, broker)
      else
        var obj := if oid in broker.objects then broker.objects[oid] else Blank;
        var loaded := LoadRow(obj, row, q.column0, row.accountId);
        Lookup(Some(oid), row.password, broker.(objects := broker.objects[oid := loaded]))
  }

  /** `getAccount(uint32 accountID, bool forceSqlUpdate)`: looks the broker up
      BEFORE querying, so a miss leaves a blank object behind even when no row
      exists. */
  function GetAccountById(databaseId: bv64, db: Db, broker: Broker, accountId: AccountId,
                          force: bool): (r: (Option<Oid>, Broker))
    ensures OthersUnchanged(broker, r.1, PackOid(accountId, databaseId))
    ensures r.0.Some? ==> r.0.value == PackOid(accountId, databaseId) && r.0.value in r.1.objects
    ensures var oid := PackOid(accountId, databaseId);
      && (oid !in broker.objects && !broker.factoryUp ==> r == (None, broker))
      && (oid in broker.objects && broker.objects[oid].sqlLoaded && !force ==> r == (Some(oid), broker))
      // A miss the factory serves always registers the object, row or no row.
      && (oid !in broker.objects && broker.factoryUp ==> oid in r.1.objects)
      && ((oid in broker.objects || broker.factoryUp) &&
          (oid !in broker.objects || !broker.objects[oid].sqlLoaded || force) ==>
            match FirstMatch(db.accounts, ById(accountId))
            // No row: nullptr; an existing object is left alone, and a new one
            // stays registered blank and unloaded.
            case None => && r.0 == None
                         && r.1 == if oid in broker.objects then broker
                                   else broker.(objects := broker.objects[oid := Blank])
            case Some(row) => r.0 == Some(oid) && Reflects(r.1.objects[oid], row, ActiveColumn))
  {
    var oid := PackOid(accountId, databaseId);
    if oid !in broker.objects && !broker.factoryUp then (None, broker)
    else if oid in broker.objects && !force && broker.objects[oid].sqlLoaded then (Some(oid), broker)
    else
      var b1 := if oid in broker.objects then broker else broker.(objects := broker.objects[oid := Blank]);
      match FirstMatch(db.accounts, ById(accountId))
      case None => (None, b1)
      case Some(row) =>
        (Some(oid), b1.(objects := b1.objects[oid := LoadRow(b1.objects[oid], row, ActiveColumn, accountId)]))
  }

  /** `getAccount(uint32 accountID, String& passwordStored, bool forceSqlUpdate)`:
      the query-driven lookup with a by-id query. */
  function GetAccountByIdWithPassword(databaseId: bv64, db: Db, broker: Broker, accountId: AccountId,
                                      passwordStored: string, force: bool): (r: Lookup)
    ensures r.account.Some? ==> r.account.value == PackOid(accountId, databaseId)
    ensures FirstMatch(db.accounts, ById(accountId)).None? ==> r == Lookup(None, passwordStored, broker)
    ensures FirstMatch(db.accounts, ById(accountId)).Some? ==>
      var row := FirstMatch(db.accounts, ById(accountId)).value;
      var oid := PackOid(accountId, databaseId);
      && OthersUnchanged(broker, r.broker, oid)
      && (oid !in broker.objects && !broker.factoryUp ==> r == Lookup(None, passwordStored, broker))
      && (oid in broker.objects && broker.objects[oid].sqlLoaded && !force ==>
            r == Lookup(Some(oid), passwordStored, broker))
      // A refresh reads the row into the object and hands out its stored hash.
      && ((oid in broker.objects || broker.factoryUp) &&
          (oid !in broker.objects || !broker.objects[oid].sqlLoaded || force) ==>
            && r.account == Some(oid)
            && oid in r.broker.objects
            && Reflects(r.broker.objects[oid], row, ActiveColumn)
            && r.passwordStored == row.password)
  {
    GetAccountByQuery(databaseId, db, broker, Query(ActiveColumn, ById(accountId)), passwordStored, force)
  }

  /** `getAccount(const String& accountName, bool forceSqlUpdate)`: the name is
      escaped before it is spliced into the query; the hash is thrown away. */
  function GetAccountByName(escape: string -> string, databaseId: bv64, db: Db, broker: Broker,
                            accountName: string, force: bool): (r: (Option<Oid>, Broker))
    ensures FirstMatch(db.accounts, ByName(escape(accountName))).None? ==> r == (None, broker)
    ensures r.0.Some? ==> && FirstMatch(db.accounts, ByName(escape(accountName))).Some?
                          && r.0.value == PackOid(FirstMatch(db.accounts, ByName(escape(accountName))).value.accountId, databaseId)
                          && r.0.value in r.1.objects
    ensures FirstMatch(db.accounts, ByName(escape(accountName))).Some? ==>
      var row := FirstMatch(db.accounts, ByName(escape(accountName))).value;
      var oid := PackOid(row.accountId, databaseId);
      && OthersUnchanged(broker, r.1, oid)
      && (oid !in broker.objects && !broker.factoryUp ==> r == (None, broker))
      && (oid in broker.objects && broker.objects[oid].sqlLoaded && !force ==> r == (Some(oid), broker))
      // A refresh reads the row into the object through `a.active`.
      && ((oid in broker.objects || broker.factoryUp) &&
          (oid !in broker.objects || !broker.objects[oid].sqlLoaded || force) ==>
            r.0 == Some(oid) && oid in r.1.objects && Reflects(r.1.objects[oid], row, ActiveColumn))
  {
    var look := GetAccountByQuery(databaseId, db, broker, Query(ActiveColumn, ByName(escape(accountName))), "", force);
    (look.account, look.broker)
  }

  /** A name lookup leaves a loaded object behind: resolving the found row's id
      afterwards, without a forced refresh, returns the same object and changes
      nothing. */
  lemma NameThenIdAgree(escape: string -> string, databaseId: bv64, db: Db, broker: Broker,
                        accountName: string, force: bool)
    requires GetAccountByName(escape, databaseId, db, broker, accountName, force).0.Some?
    ensures var (a, b) := GetAccountByName(escape, databaseId, db, broker, accountName, force);
            var row := FirstMatch(db.accounts, ByName(escape(accountName))).value;
            GetAccountById(databaseId, db, b, row.accountId, false) == (a, b)
  {
    var (a, b) := GetAccountByName(escape, databaseId, db, broker, accountName, force);
    var row := FirstMatch(db.accounts, ByName(escape(accountName))).value;
    var oid := PackOid(row.accountId, databaseId);
    assert a == Some(oid);
    assert b.objects[oid].sqlLoaded;
  }

  /** Resolving the same id twice yields the same shared object, and the second
      resolution creates nothing; without a forced refresh it changes nothing. */
  lemma {:induction false} SecondResolutionReuses(databaseId: bv64, db: Db, broker: Broker, accountId: AccountId,
                                                  force1: bool, force2: bool)
    requires GetAccountById(databaseId, db, broker, accountId, force1).0.Some?
    ensures var (a1, b1) := GetAccountById(databaseId, db, broker, accountId, force1);
            var (a2, b2) := GetAccountById(databaseId, db, b1, accountId, force2);
            && (a2.Some? ==> a2 == a1)
            && b2.objects.Keys == b1.objects.Keys
            && (!force2 ==> b2 == b1)
  {
    var (a1, b1) := GetAccountById(databaseId, db, broker, accountId, force1);
    var oid := PackOid(accountId, databaseId);
    assert a1 == Some(oid);
    if !(oid in broker.objects && broker.objects[oid].sqlLoaded && !force1) {
      var row := FirstMatch(db.accounts, ById(accountId)).value;
      assert Reflects(b1.objects[oid], row, ActiveColumn);
    }
    assert b1.objects[oid].sqlLoaded;
    var (a2, b2) := GetAccountById(databaseId, db, b1, accountId, force2);
    assert oid in b1.objects;
  }
}

=== FILE: account_table.dfy ===
/** The `accounts` table as an ordered sequence of rows, and the three ways the
    login core touches it: a `SELECT ... LIMIT 1` by username or by account id, the
    `INSERT` of account creation, and the `UPDATE ... WHERE username = ...` of hash
    migration. SQL text is not modelled; the key is the text spliced into the
    statement's WHERE clause. */
module AccountTable {
  import opened Common

  datatype Key = ByName(name: string) | ById(id: AccountId)

  predicate Matches(row: Row, key: Key) {
    match key
    case ByName(name) => row.username == name
    case ById(id) => row.accountId == id
  }

  /** `SELECT ... WHERE <key> LIMIT 1`: the first row in table order that matches. */
  function FirstMatch(rows: seq<Row>, key: Key): (r: Option<Row>)
    ensures r.None? <==> forall i :: 0 <= i < |rows| ==> !Matches(rows[i], key)
    ensures r.Some? ==> exists i :: 0 <= i < |rows| && rows[i] == r.value
                                    && Matches(rows[i], key)
                                    && forall j :: 0 <= j < i ==> !Matches(rows[j], key)
  {
    if |rows| == 0 then None
    else if Matches(rows[0], key) then Some(rows[0])
    else
      var rest := FirstMatch(rows[1..], key);
      if rest.Some? then
        ghost var i :| 0 <= i < |rows| - 1 && rows[1..][i] == rest.value
                       && Matches(rows[1..][i], key)
                       && forall j :: 0 <= j < i ==> !Matches(rows[1..][j], key);
        assert rows[i + 1] == rest.value;
        assert forall j :: 1 <= j < i + 1 ==> rows[j] == rows[1..][j - 1];
        rest
      else
        assert forall i :: 1 <= i < |rows| ==> rows[i] == rows[1..][i - 1];
        rest
  }

  /** The row a migration writes: new salted hash and new salt, nothing else. */
  function Migrated(row: Row, hash: string, salt: string): Row {
    row.(password := hash, salt := salt)
  }

  /** `UPDATE accounts SET password = hash, salt = salt WHERE username = name`. */
  function UpdatePasswordWhere(rows: seq<Row>, name: string, hash: string, salt: string): (r: seq<Row>)
    ensures |r| == |rows|
    ensures forall i :: 0 <= i < |rows| ==>
              r[i] == if rows[i].username == name then Migrated(rows[i], hash, salt) else rows[i]
  {
    if |rows| == 0 then []
    else
      var head := if rows[0].username == name then Migrated(rows[0], hash, salt) else rows[0];
      [head] + UpdatePasswordWhere(rows[1..], name, hash, salt)
  }

  /** The update keeps every row's id and username, so a lookup by username still
      finds the row it found before, now carrying the new hash and salt. */
  lemma {:induction false} FirstMatchAfterUpdate(rows: seq<Row>, name: string, hash: string, salt: string)
    ensures FirstMatch(UpdatePasswordWhere(rows, name, hash, salt), ByName(name))
            == match FirstMatch(rows, ByName(name))
               case None => None
               case Some(row) => Some(Migrated(row, hash, salt))
  {
    var r := UpdatePasswordWhere(rows, name, hash, salt);
    if |rows| > 0 {
      assert r[0] == if rows[0].username == name then Migrated(rows[0], hash, salt) else rows[0];
      if rows[0].username != name {
        assert r[1..] == UpdatePasswordWhere(rows[1..], name, hash, salt);
        FirstMatchAfterUpdate(rows[1..], name, hash, salt);
      }
    }
  }

  /** A lookup by id on a table the new row was appended to finds the new row,
      provided its id was not in use. */
  lemma {:induction false} FirstMatchAppendFresh(rows: seq<Row>, row: Row)
    ensures (forall i :: 0 <= i < |rows| ==> rows[i].accountId != row.accountId) ==>
              FirstMatch(rows + [row], ById(row.accountId)) == Some(row)
  {
    if |rows| > 0 && forall i :: 0 <= i < |rows| ==> rows[i].accountId != row.accountId {
      assert forall i :: 0 <= i < |rows[1..]| ==> rows[1..][i].accountId != row.accountId;
      assert (rows + [row])[1..] == rows[1..] + [row];
      FirstMatchAppendFresh(rows[1..], row);
    }
  }

  /** Appending a row never changes what an earlier match found. */
  lemma {:induction false} FirstMatchAppendKeeps(rows: seq<Row>, row: Row, key: Key)
    requires FirstMatch(rows, key).Some?
    ensures FirstMatch(rows + [row], key) == FirstMatch(rows, key)
  {
    if !Matches(rows[0], key) {
      assert (rows + [row])[1..] == rows[1..] + [row];
      FirstMatchAppendKeeps(rows[1..], row, key);
    }
  }
}

=== FILE: ban_time.dfy ===
/** The remaining-ban-time text of the banned-account rejection: the seconds left
    are broken into days, hours, minutes and seconds by floor division, each unit's
    remainder carried to the next, and printed with zero days, hours and minutes
    left out. Dafny's `/` on `int` with a positive divisor is floor division, which
    is what `floor(totalBan / 60.f / 60.f / 24.f)` computes when no float rounding
    intervenes. */
module BanTime {
  import Common

  datatype Breakdown = Breakdown(days: int, hours: int, minutes: int, seconds: int)

  const SecondsPerDay := 86400
  const SecondsPerHour := 3600
  const SecondsPerMinute := 60

  /** The breakdown of `total` seconds, in the order the login code subtracts. */
  function BreakDown(total: int): (b: Breakdown)
    ensures b.days * SecondsPerDay + b.hours * SecondsPerHour + b.minutes * SecondsPerMinute + b.seconds == total
    ensures 0 <= b.hours < 24 && 0 <= b.minutes < 60 && 0 <= b.seconds < 60
    ensures total >= 0 ==> b.days >= 0
  {
    var days := total / SecondsPerDay;
    var afterDays := total - days * SecondsPerDay;
    var hours := afterDays / SecondsPerHour;
    var afterHours := afterDays - hours * SecondsPerHour;
    var minutes := afterHours / SecondsPerMinute;
    Breakdown(days, hours, minutes, afterHours - minutes * SecondsPerMinute)
  }

  /** There is only one such breakdown: any days/hours/minutes/seconds that add
      up to `total` within the unit bounds is the one `BreakDown` computes. */
  lemma BreakDownUnique(total: int, b: Breakdown)
    requires b.days * SecondsPerDay + b.hours * SecondsPerHour + b.minutes * SecondsPerMinute + b.seconds == total
    requires 0 <= b.hours < 24 && 0 <= b.minutes < 60 && 0 <= b.seconds < 60
    ensures BreakDown(total) == b
  {
    var belowDay := b.hours * SecondsPerHour + b.minutes * SecondsPerMinute + b.seconds;
    var belowHour := b.minutes * SecondsPerMinute + b.seconds;
    QuotientUnique(total, SecondsPerDay, b.days, belowDay);
    QuotientUnique(belowDay, SecondsPerHour, b.hours, belowHour);
    QuotientUnique(belowHour, SecondsPerMinute, b.minutes, b.seconds);
  }

  /** Floor division has one quotient: the one whose remainder lies in [0, d). */
  lemma QuotientUnique(n: int, d: int, q: int, r: int)
    requires d > 0 && n == q * d + r && 0 <= r < d
    ensures n / d == q
  {
    var q' := n / d;
    var r' := n % d;
    assert n == q' * d + r';
    assert (q - q') * d == r' - r;
    if q > q' {
      MultipleAtLeast(q - q', d);
    } else if q < q' {
      MultipleAtLeast(q' - q, d);
    }
  }

  lemma MultipleAtLeast(k: int, d: int)
    requires k >= 1 && d > 0
    ensures k * d >= d
  {
    assert k * d == (k - 1) * d + d;
  }

  /** A time unit as it is printed. */
  datatype Unit = Days | Hours | Minutes | Seconds

  function UnitName(u: Unit): string {
    match u
    case Days => "Days"
    case Hours => "Hours"
    case Minutes => "Minutes"
    case Seconds => "Seconds"
  }

  /** Position of a unit in the printed text: larger units first. */
  function UnitRank(u: Unit): int {
    match u
    case Days => 0
    case Hours => 1
    case Minutes => 2
    case Seconds => 3
  }

  datatype Part = Part(amount: int, unit: Unit)

  /** The parts printed after "Time remaining: ": each of days, hours and minutes
      only when positive, the seconds always, last. */
  function ShownParts(b: Breakdown): (ps: seq<Part>)
    ensures |ps| >= 1 && ps[|ps| - 1] == Part(b.seconds, Seconds)
    ensures Part(b.days, Days) in ps <==> b.days > 0
    ensures Part(b.hours, Hours) in ps <==> b.hours > 0
    ensures Part(b.minutes, Minutes) in ps <==> b.minutes > 0
    ensures forall i :: 0 <= i < |ps| ==> ps[i] in [Part(b.days, Days), Part(b.hours, Hours),
                                                    Part(b.minutes, Minutes), Part(b.seconds, Seconds)]
    // Days, hours, minutes, seconds, in that order, none twice.
    ensures forall i, j :: 0 <= i < j < |ps| ==> UnitRank(ps[i].unit) < UnitRank(ps[j].unit)
  {
    (if b.days > 0 then [Part(b.days, Days)] else [])
    + (if b.hours > 0 then [Part(b.hours, Hours)] else [])
    + (if b.minutes > 0 then [Part(b.minutes, Minutes)] else [])
    + [Part(b.seconds, Seconds)]
  }

  predicate IsDigit(c: char) {
    '0' <= c <= '9'
  }

  /** Decimal text of a natural number, as the output stream prints it. */
  function NatToDecimal(n: nat): (s: string)
    ensures |s| >= 1 && (forall i :: 0 <= i < |s| ==> IsDigit(s[i]))
    ensures s[0] == '0' ==> n == 0
    decreases n
  {
    if n < 10 then [(n + '0' as int) as char]
    else NatToDecimal(n / 10) + [(n % 10 + '0' as int) as char]
  }

  /** The value of a string of decimal digits. */
  function DecimalValue(s: string): nat
    requires forall i :: 0 <= i < |s| ==> IsDigit(s[i])
  {
    if |s| == 0 then 0
    else
      assert IsDigit(s[|s| - 1]);
      DecimalValue(s[..|s| - 1]) * 10 + (s[|s| - 1] as int - '0' as int)
  }

  /** Reading the printed digits back gives the number. */
  lemma {:induction false} DecimalRoundTrip(n: nat)
    ensures DecimalValue(NatToDecimal(n)) == n
    decreases n
  {
    var s := NatToDecimal(n);
    if n >= 10 {
      DecimalRoundTrip(n / 10);
      assert s[..|s| - 1] == NatToDecimal(n / 10);
    }
  }

  /** Decimal text of an integer: a minus sign before negative values. */
  function IntToDecimal(i: int): (s: string)
    ensures |s| >= 1
  {
    if i < 0 then "-" + NatToDecimal(-i) else NatToDecimal(i)
  }

  /** Distinct integers print differently. */
  lemma IntToDecimalInjective(i: int, j: int)
    requires IntToDecimal(i) == IntToDecimal(j)
    ensures i == j
  {
    if i < 0 && j < 0 {
      assert NatToDecimal(-i) == IntToDecimal(i)[1..];
      assert NatToDecimal(-j) == IntToDecimal(j)[1..];
      DecimalRoundTrip(-i);
      DecimalRoundTrip(-j);
    } else if i >= 0 && j >= 0 {
      DecimalRoundTrip(i);
      DecimalRoundTrip(j);
    }
  }

  function PartText(p: Part): string {
    IntToDecimal(p.amount) + " " + UnitName(p.unit) + (if p.unit == Seconds then "\n" else " ")
  }

  function PartsText(ps: seq<Part>): string {
    if |ps| == 0 then "" else PartText(ps[0]) + PartsText(ps[1..])
  }

  const BanBanner := "Tu cuenta ha sido baneada por un Administrador.\n\n"

  /** "Time remaining: " and the shown parts. */
  function RemainingLine(total: int): string {
    "Time remaining: " + PartsText(ShownParts(BreakDown(total)))
  }

  function ReasonLine(reason: string): string {
    "Reason: " + reason
  }

  /** The body of the "Cuenta baneada" rejection. */
  function BanMessage(total: int, reason: string): string {
    BanBanner + RemainingLine(total) + ReasonLine(reason)
  }

  /** The seconds are the last part printed, so the parts text ends with the
      seconds count, " Seconds" and a line break. */
  lemma {:induction false} PartsTextEndsWithSeconds(ps: seq<Part>)
    requires |ps| >= 1 && ps[|ps| - 1].unit == Seconds
    ensures var t := PartsText(ps);
            var last := PartText(ps[|ps| - 1]);
            |t| >= |last| && t[|t| - |last|..] == last
    decreases |ps|
  {
    if |ps| > 1 {
      PartsTextEndsWithSeconds(ps[1..]);
    }
  }

  lemma ConcatFrames(a: string, mid: string, tail: string)
    ensures (a + mid + tail)[..|a|] == a
    ensures (a + mid + tail)[|a| + |mid|..] == tail
  {
  }

  /** The remaining-time line always ends with the seconds left, " Seconds" and
      a line break, whatever units come before. */
  lemma RemainingLineEndsWithSeconds(total: int)
    ensures var line := RemainingLine(total);
            var last := PartText(Part(BreakDown(total).seconds, Seconds));
            |line| >= |last| && line[|line| - |last|..] == last
  {
    var ps := ShownParts(BreakDown(total));
    PartsTextEndsWithSeconds(ps);
    SuffixOfConcat("Time remaining: ", PartsText(ps), |PartText(ps[|ps| - 1])|);
  }

  lemma SuffixOfConcat(x: string, y: string, n: nat)
    requires n <= |y|
    ensures (x + y)[|x + y| - n..] == y[|y| - n..]
  {
  }

  /** The rendered ban notice opens with the banner and ends with the line
      holding the recorded reason. */
  lemma BanNoticeFrames(remaining: int, reason: string)
    ensures var m := Render(Common.BanNotice(remaining, reason));
            && |m| >= |BanBanner| + |ReasonLine(reason)|
            && m[..|BanBanner|] == BanBanner
            && m[|m| - |ReasonLine(reason)|..] == ReasonLine(reason)
            && ReasonLine(reason)[|ReasonLine(reason)| - |reason|..] == reason
  {
    ConcatFrames(BanBanner, RemainingLine(remaining), ReasonLine(reason));
  }

  /** The text a message body stands for. */
  function Render(b: Common.Body): string {
    match b
    case Text(t) => t
    case BanNotice(remaining, reason) => BanMessage(remaining, reason)
  }

  /** A ban with 3661 seconds left shows one hour, one minute and one second; the
      zero day count is not printed. */
  lemma BanPartsExample()
    ensures ShownParts(BreakDown(3661)) == [Part(1, Hours), Part(1, Minutes), Part(1, Seconds)]
  {
    assert BreakDown(3661) == Breakdown(0, 1, 1, 1);
  }
}

=== FILE: common.dfy ===
/** Shared vocabulary of the login server model: optional values, the rows of the
    accounts, sessions and account_log tables, and the observable effects of a login
    (messages sent to the client, SQL statements executed, log lines). */
module Common {

  datatype Option<+T> = None | Some(value: T)

  /** Account ids are unsigned 32-bit in the schema and in the C++ code. */
  type AccountId = bv32

  /** Ban state of an account, as loaded by Account::updateFromDatabase. */
  datatype Ban = Ban(banned: bool, expires: int, reason: string)

  const NotBanned := Ban(false, 0, "")

  /** One row of the `accounts` table. `ban` is what the account object's own
      database refresh reads besides the selected columns. */
  datatype Row = Row(
    accountId: AccountId,
    username: string,
    password: string,
    salt: string,
    stationId: bv32,
    created: int,
    adminLevel: int,
    active: bool,
    ban: Ban)

  /** Column defaults the schema gives a row inserted by account creation. */
  datatype ColumnDefaults = ColumnDefaults(active: bool, adminLevel: int)

  /** The primary key of the `sessions` table. (A datatype rather than the bare
      bit-vector: Dafny maps keyed by bit-vectors lose the update facts.) */
  datatype SessionKey = SessionKey(accountId: AccountId)

  /** One row of the `sessions` table, without its key. */
  datatype SessionRow = SessionRow(sessionId: string, ip: string, expires: int)

  /** One row of the append-only `account_log` table. */
  datatype LogRow = LogRow(accountId: AccountId, ip: string, timestamp: int)

  /** The server database as far as the login core touches it. */
  datatype Db = Db(
    accounts: seq<Row>,
    sessions: map<SessionKey, SessionRow>,
    accountLog: seq<LogRow>,
    defaults: ColumnDefaults)

  /** The SQL statements the core issues, with the values spliced into them. */
  datatype Statement =
    | InsertAccount(username: string, hash: string, stationId: bv32, salt: string)
    | UpdatePassword(username: string, hash: string, salt: string)
    | ReplaceSession(accountId: AccountId, sessionId: string, ip: string)
    | InsertLogEntry(accountId: AccountId, ip: string)

  /** The body of an error message: fixed or configured text, or the banned-account
      notice, kept as the seconds left and the reason and rendered to text by
      BanTime.Render. */
  datatype Body = Text(text: string) | BanNotice(remaining: int, reason: string)

  /** Everything the core does that an observer can see, in order. */
  datatype Effect =
    | SendError(title: string, body: Body)
    | Exec(stmt: Statement, committed: bool)
    | LogError
    | SendToken(accountId: AccountId, sessionId: string)
    | SetAccountId(accountId: AccountId)
    | NotifySessionStart(ip: string, accountId: AccountId)
    | SendEnumCluster(accountId: AccountId)
    | SendClusterStatus(accountId: AccountId)
    | SendEnumerateCharacterId(accountId: AccountId)

  /** The error sent to the client, if there is a client to send it to. */
  function ErrorTo(client: bool, title: string, body: Body): seq<Effect> {
    if client then [SendError(title, body)] else []
  }
}

=== FILE: credentials.dfy ===
/** Credential validation (`validateAccountCredentials`) with its two helpers,
    account creation (`createAccount`) and hash migration (`updateHash`). The gates
    run in the order of the C++: lookup or auto-registration, active check, hash
    comparison, legacy-hash migration, ban check. Hash functions, the escaping
    function and the version check are parameters; random draws and database
    failures are inputs. */
module Credentials {
  import opened Common
  import opened ObjectIds
  import opened AccountTable
  import opened AccountCache

  /** Collaborators and configuration. */
  datatype Env = Env(
    sha1: string -> string,
    sha256: string -> string,
    escape: string -> string,
    versionAccepted: string -> bool,
    dbSecret: string,
    autoRegistration: bool,
    registrationMessage: Option<string>,
    inactiveTitle: string,
    inactiveText: string,
    databaseId: bv64,
    now: int)

  /** What one validation draws from randomness and learns from the database:
      the station id and salt of a new account, the id its INSERT generated (None
      when the query came back null), the migration salt, and whether the
      migration UPDATE committed. */
  datatype Draws = Draws(
    stationId: bv32,
    accountSalt: string,
    insertedId: Option<AccountId>,
    migrationSalt: string,
    migrationCommits: bool)

  datatype State = State(db: Db, broker: Broker)

  /** `NullDereference` is the crash at the active check when account creation
      returned null; `Aborted` is the null return the corrected variant makes
      of that case instead. */
  datatype Outcome =
    | Accepted(oid: Oid)
    | Rejected(title: string, body: Body)
    | NullDereference
    | Aborted

  datatype Validation = Validation(outcome: Outcome, st: State, effects: seq<Effect>)

  const LoginErrorTitle := "Login Error"
  const DefaultRegistrationMessage :=
    "El Registro Automatico esta desactivado. Por favor, contacta con un Administrador para conseguir acceso."
  const DefaultInactiveTitle := "Cuenta desactivada"
  const DefaultInactiveText := "Contacta con un Administrador para saber que ha sucedido."
  const WrongPasswordTitle := "Clave Erronea"
  const WrongPasswordText := " La clave que has insertado no es correcta."
  const BannedTitle := "Cuenta baneada"

  /** `Core3.RegistrationMessage`, or its built-in default when unset. */
  function RegistrationMessage(env: Env): string {
    match env.registrationMessage
    case Some(m) => m
    case None => DefaultRegistrationMessage
  }

  /** The configured inactive-account texts; an empty one falls back to the default. */
  function InactiveTitle(env: Env): string {
    if |env.inactiveTitle| == 0 then DefaultInactiveTitle else env.inactiveTitle
  }

  function InactiveText(env: Env): string {
    if |env.inactiveText| == 0 then DefaultInactiveText else env.inactiveText
  }

  /** The salted hash the server stores: SHA-256 of the database secret, the
      password and the salt, concatenated in that order. */
  function SaltedHash(env: Env, password: string, salt: string): string {
    env.sha256(env.dbSecret + password + salt)
  }

  /** The hash a password must produce for an account with salt `salt`: SHA-1 of
      the password when the salt is empty (legacy), SHA-256 of secret, password
      and salt otherwise. */
  function HashFor(env: Env, password: string, salt: string): string {
    if salt == "" then env.sha1(password) else SaltedHash(env, password, salt)
  }

  datatype Written = Written(db: Db, effects: seq<Effect>)

  /** `updateHash`: store a salted SHA-256 hash under a new salt for every row of
      the username. A failed statement is logged and otherwise ignored. */
  function UpdateHash(env: Env, salt: string, commits: bool, db: Db,
                      username: string, password: string): (w: Written)
    ensures |w.effects| >= 1
    ensures w.effects[0] == Exec(UpdatePassword(username, SaltedHash(env, password, salt), salt), commits)
    ensures w.effects[1..] == if commits then [] else [LogError]
    ensures !commits ==> w.db == db
    ensures w.db.sessions == db.sessions && w.db.accountLog == db.accountLog && w.db.defaults == db.defaults
    ensures |w.db.accounts| == |db.accounts|
    // Other users' rows are untouched; the user's rows now carry the new salt,
    // and the password that was just verified verifies against them.
    ensures commits ==> forall i :: 0 <= i < |db.accounts| ==>
              if db.accounts[i].username == username then
                && w.db.accounts[i].salt == salt
                && w.db.accounts[i] == db.accounts[i].(password := w.db.accounts[i].password, salt := salt)
                && (salt != "" ==> HashFor(env, password, w.db.accounts[i].salt) == w.db.accounts[i].password)
              else w.db.accounts[i] == db.accounts[i]
  {
    var hash := SaltedHash(env, password, salt);
    var stmt := UpdatePassword(username, hash, salt);
    if commits then Written(db.(accounts := UpdatePasswordWhere(db.accounts, username, hash, salt)), [Exec(stmt, true)])
    else Written(db, [Exec(stmt, false), LogError])
  }

  datatype Created = Created(account: Option<Oid>, passwordStored: string, st: State, effects: seq<Effect>)

  /** The row account creation inserts. */
  function NewRow(env: Env, draws: Draws, db: Db, id: AccountId, username: string, password: string): Row {
    Row(id, username, SaltedHash(env, password, draws.accountSalt), draws.accountSalt,
        draws.stationId, env.now, db.defaults.adminLevel, db.defaults.active, NotBanned)
  }

  /** `createAccount`: insert a row with a salted hash, then load it by the new
      id with a forced refresh, which also hands back the stored hash. */
  function CreateAccount(env: Env, draws: Draws, st: State, username: string, password: string,
                         passwordStored: string): (c: Created)
    ensures c.effects == [Exec(InsertAccount(username, SaltedHash(env, password, draws.accountSalt),
                                             draws.stationId, draws.accountSalt), draws.insertedId.Some?)]
    ensures draws.insertedId.None? ==> c.account.None? && c.st == st && c.passwordStored == passwordStored
    ensures draws.insertedId.Some? ==>
              c.st.db == st.db.(accounts := st.db.accounts + [NewRow(env, draws, st.db, draws.insertedId.value, username, password)])
    ensures c.account.Some? ==> c.account.value in c.st.broker.objects
    // The reload touches only the new account's entry of the broker.
    ensures draws.insertedId.Some? ==> OthersUnchanged(st.broker, c.st.broker, PackOid(draws.insertedId.value, env.databaseId))
    // A broker miss the factory cannot serve makes the reload, and so the
    // creation, return nullptr.
    ensures draws.insertedId.Some? && !st.broker.factoryUp && PackOid(draws.insertedId.value, env.databaseId) !in st.broker.objects ==>
              c.account.None? && c.st.broker == st.broker && c.passwordStored == passwordStored
    // A fresh id the broker can serve yields the new account, whose salt and
    // stored hash make the creating password verify.
    ensures draws.insertedId.Some? && (forall i :: 0 <= i < |st.db.accounts| ==> st.db.accounts[i].accountId != draws.insertedId.value)
            && (st.broker.factoryUp || PackOid(draws.insertedId.value, env.databaseId) in st.broker.objects) ==>
              && c.account == Some(PackOid(draws.insertedId.value, env.databaseId))
              && Reflects(c.st.broker.objects[c.account.value], NewRow(env, draws, st.db, draws.insertedId.value, username, password), ActiveColumn)
              && c.passwordStored == NewRow(env, draws, st.db, draws.insertedId.value, username, password).password
              && (draws.accountSalt != "" ==> c.passwordStored == HashFor(env, password, c.st.broker.objects[c.account.value].salt))
  {
    var hash := SaltedHash(env, password, draws.accountSalt);
    var stmt := InsertAccount(username, hash, draws.stationId, draws.accountSalt);
    match draws.insertedId
    case None => Created(None, passwordStored, st, [Exec(stmt, false)])
    case Some(id) =>
      var row := NewRow(env, draws, st.db, id, username, password);
      var db1 := st.db.(accounts := st.db.accounts + [row]);
      FirstMatchAppendFresh(st.db.accounts, row);
      var look := GetAccountByIdWithPassword(env.databaseId, db1, st.broker, id, passwordStored, true);
      Created(look.account, look.passwordStored, State(db1, look.broker), [Exec(stmt, true)])
  }

  /** Which implementation of validation: the code as written, or with the two
      defects of the README's findings corrected. */
  datatype Variant = AsWritten | Corrected

  /** The username query of validation. As written it selects `a.account_id`
      where every other account query selects `a.active`. */
  function UsernameQuery(variant: Variant, username: string): Query {
    Query(if variant == AsWritten then AccountIdColumn else ActiveColumn, ByName(username))
  }

  /** The gates after the account is in hand: active, hash, migration, ban. */
  function CheckAccount(env: Env, draws: Draws, st: State, client: bool, username: string, password: string,
                        oid: Oid, passwordStored: string, prior: seq<Effect>): (v: Validation)
    requires oid in st.broker.objects
    ensures v.st.broker == st.broker
    ensures |v.st.db.accounts| == |st.db.accounts|
    ensures v.outcome.Accepted? || v.outcome.Rejected?
    ensures |v.effects| >= |prior| && v.effects[..|prior|] == prior
    ensures v.outcome.Accepted? <==>
              && st.broker.objects[oid].active
              && passwordStored == HashFor(env, password, st.broker.objects[oid].salt)
              && !st.broker.objects[oid].ban.banned
    ensures v.outcome.Accepted? ==> v.outcome.oid == oid
  {
    var acct := st.broker.objects[oid];
    if !acct.active then
      var title := InactiveTitle(env);
      var body := Text(InactiveText(env));
      Validation(Rejected(title, body), st, prior + ErrorTo(client, title, body))
    else if passwordStored != HashFor(env, password, acct.salt) then
      Validation(Rejected(WrongPasswordTitle, Text(WrongPasswordText)), st,
                 prior + ErrorTo(client, WrongPasswordTitle, Text(WrongPasswordText)))
    else
      var w := if acct.salt == "" then UpdateHash(env, draws.migrationSalt, draws.migrationCommits, st.db, username, password)
               else Written(st.db, []);
      var st1 := State(w.db, st.broker);
      if acct.ban.banned then
        var body := BanNotice(acct.ban.expires - env.now, acct.ban.reason);
        Validation(Rejected(BannedTitle, body), st1, prior + w.effects + ErrorTo(client, BannedTitle, body))
      else
        Validation(Accepted(oid), st1, prior + w.effects)
  }

  /** `validateAccountCredentials` in either variant. `username` and `password`
      arrive already escaped. */
  function ValidateWith(variant: Variant, env: Env, draws: Draws, st: State, client: bool,
                        username: string, password: string): (v: Validation)
    ensures v.outcome.Accepted? ==> && v.outcome.oid in v.st.broker.objects
                                    && v.st.broker.objects[v.outcome.oid].active
                                    && !v.st.broker.objects[v.outcome.oid].ban.banned
    ensures v.outcome.NullDereference? ==> variant == AsWritten
    ensures v.outcome.Aborted? ==> variant == Corrected
    // Only auto-registration adds a row, and it needs both the switch and a client.
    ensures !(env.autoRegistration && client) ==> |v.st.db.accounts| == |st.db.accounts|
  {
    var look := GetAccountByQuery(env.databaseId, st.db, st.broker, UsernameQuery(variant, username), "", true);
    var st1 := State(st.db, look.broker);
    match look.account
    case Some(oid) =>
      CheckAccount(env, draws, st1, client, username, password, oid, look.passwordStored, [])
    case None =>
      if env.autoRegistration && client then
        var c := CreateAccount(env, draws, st1, username, password, look.passwordStored);
        match c.account
        case Some(oid) =>
          CheckAccount(env, draws, c.st, client, username, password, oid, c.passwordStored, c.effects)
        case None =>
          Validation(if variant == AsWritten then NullDereference else Aborted, c.st, c.effects)
      else
        var msg := Text(RegistrationMessage(env));
        Validation(Rejected(LoginErrorTitle, msg), st1, ErrorTo(client, LoginErrorTitle, msg))
  }

  /** `validateAccountCredentials` as written. */
  function ValidateAccountCredentials(env: Env, draws: Draws, st: State, client: bool,
                                      username: string, password: string): (v: Validation)
    ensures v.outcome.Accepted? ==> v.outcome.oid in v.st.broker.objects
                                    && !v.st.broker.objects[v.outcome.oid].ban.banned
    ensures !v.outcome.Aborted?
  {
    ValidateWith(AsWritten, env, draws, st, client, username, password)
  }

  /** `validateAccountCredentials` with the findings corrected: the username query
      reads `a.active`, and a failed account creation returns null. */
  function ValidateAccountCredentialsCorrected(env: Env, draws: Draws, st: State, client: bool,
                                               username: string, password: string): (v: Validation)
    ensures v.outcome.Accepted? ==> v.outcome.oid in v.st.broker.objects
                                    && v.st.broker.objects[v.outcome.oid].active
    ensures !v.outcome.NullDereference?
  {
    ValidateWith(Corrected, env, draws, st, client, username, password)
  }

  // ---------------------------------------------------------------------------
  // Properties of validation, stated against the contents of the accounts table.
  // ---------------------------------------------------------------------------

  /** The broker can hand out an object for the row: it has one, or can make one. */
  predicate Serves(env: Env, broker: Broker, row: Row) {
    broker.factoryUp || PackOid(row.accountId, env.databaseId) in broker.objects
  }

  /** The active flag validation sees for `row` in the given variant. */
  function ActiveAsRead(variant: Variant, row: Row): bool {
    Column0Flag(UsernameQuery(variant, row.username).column0, row)
  }

  /** Whether a trace holds the migration UPDATE. */
  predicate MigrationIssued(effects: seq<Effect>) {
    exists i :: 0 <= i < |effects| && effects[i].Exec? && effects[i].stmt.UpdatePassword?
  }

  /** The forced username lookup finds the row's object and refreshes it. */
  lemma LookupFindsRow(variant: Variant, env: Env, st: State, username: string, row: Row)
    requires FirstMatch(st.db.accounts, ByName(username)) == Some(row)
    requires Serves(env, st.broker, row)
    ensures var look := GetAccountByQuery(env.databaseId, st.db, st.broker, UsernameQuery(variant, username), "", true);
            && look.account == Some(PackOid(row.accountId, env.databaseId))
            && Reflects(look.broker.objects[look.account.value], row, UsernameQuery(variant, username).column0)
            && look.passwordStored == row.password
            && row.username == username
  {
    assert Matches(row, ByName(username));
  }

  /** An unknown username without auto-registration, or without a client, is
      rejected with the registration message and nothing is written. */
  lemma UnknownUserNotRegistered(variant: Variant, env: Env, draws: Draws, st: State, client: bool,
                                 username: string, password: string)
    requires FirstMatch(st.db.accounts, ByName(username)).None?
    requires !(env.autoRegistration && client)
    ensures var v := ValidateWith(variant, env, draws, st, client, username, password);
            && v.outcome == Rejected(LoginErrorTitle, Text(RegistrationMessage(env)))
            && v.st == st
            && v.effects == ErrorTo(client, LoginErrorTitle, Text(RegistrationMessage(env)))
  {
  }

  /** An unknown username with auto-registration and a client creates exactly one
      account, whose forced reload makes the password check pass: the result is
      acceptance exactly when the schema's default makes new rows active. */
  lemma UnknownUserRegistered(variant: Variant, env: Env, draws: Draws, st: State,
                              username: string, password: string, id: AccountId)
    requires FirstMatch(st.db.accounts, ByName(username)).None?
    requires env.autoRegistration
    requires draws.insertedId == Some(id)
    requires forall i :: 0 <= i < |st.db.accounts| ==> st.db.accounts[i].accountId != id
    requires draws.accountSalt != ""
    requires st.broker.factoryUp || PackOid(id, env.databaseId) in st.broker.objects
    ensures var v := ValidateWith(variant, env, draws, st, true, username, password);
            && v.st.db.accounts == st.db.accounts + [NewRow(env, draws, st.db, id, username, password)]
            && v.effects[0] == Exec(InsertAccount(username, SaltedHash(env, password, draws.accountSalt),
                                                  draws.stationId, draws.accountSalt), true)
            && !MigrationIssued(v.effects)
            && (st.db.defaults.active ==> v.outcome == Accepted(PackOid(id, env.databaseId)) && |v.effects| == 1)
            && (!st.db.defaults.active ==> v.outcome == Rejected(InactiveTitle(env), Text(InactiveText(env))))
  {
    var look := GetAccountByQuery(env.databaseId, st.db, st.broker, UsernameQuery(variant, username), "", true);
    assert look == Lookup(None, "", st.broker);
    var c := CreateAccount(env, draws, State(st.db, look.broker), username, password, look.passwordStored);
    var oid := PackOid(id, env.databaseId);
    assert c.account == Some(oid);
    var v := ValidateWith(variant, env, draws, st, true, username, password);
    assert v == CheckAccount(env, draws, c.st, true, username, password, oid, c.passwordStored, c.effects);
    var acct := c.st.broker.objects[oid];
    assert acct.salt == draws.accountSalt && !acct.ban.banned && acct.active == st.db.defaults.active;
    assert c.passwordStored == HashFor(env, password, acct.salt);
    if st.db.defaults.active {
      assert v.effects == c.effects;
    } else {
      assert v.effects == c.effects + [SendError(InactiveTitle(env), Text(InactiveText(env)))];
    }
  }

  /** The active gate comes first: an account read as inactive is rejected with the
      inactive-account texts whatever the password, and nothing is written. */
  lemma InactiveRejectedFirst(variant: Variant, env: Env, draws: Draws, st: State, client: bool,
                              username: string, password: string, row: Row)
    requires FirstMatch(st.db.accounts, ByName(username)) == Some(row)
    requires Serves(env, st.broker, row)
    requires !ActiveAsRead(variant, row)
    ensures var v := ValidateWith(variant, env, draws, st, client, username, password);
            && v.outcome == Rejected(InactiveTitle(env), Text(InactiveText(env)))
            && v.st.db == st.db
            && v.effects == ErrorTo(client, InactiveTitle(env), Text(InactiveText(env)))
  {
    LookupFindsRow(variant, env, st, username, row);
  }

  /** A wrong password is rejected with "Clave Erronea": no migration and no ban
      check, whatever the ban state. */
  lemma WrongPasswordRejected(variant: Variant, env: Env, draws: Draws, st: State, client: bool,
                              username: string, password: string, row: Row)
    requires FirstMatch(st.db.accounts, ByName(username)) == Some(row)
    requires Serves(env, st.broker, row)
    requires ActiveAsRead(variant, row)
    requires HashFor(env, password, row.salt) != row.password
    ensures var v := ValidateWith(variant, env, draws, st, client, username, password);
            && v.outcome == Rejected(WrongPasswordTitle, Text(WrongPasswordText))
            && v.st.db == st.db
            && v.effects == ErrorTo(client, WrongPasswordTitle, Text(WrongPasswordText))
  {
    LookupFindsRow(variant, env, st, username, row);
  }

  /** An existing account is accepted exactly when it reads as active, the hash
      the salt selects matches the stored one, and it is not banned. */
  lemma ExistingAccountAcceptedIff(variant: Variant, env: Env, draws: Draws, st: State, client: bool,
                                   username: string, password: string, row: Row)
    requires FirstMatch(st.db.accounts, ByName(username)) == Some(row)
    requires Serves(env, st.broker, row)
    ensures var v := ValidateWith(variant, env, draws, st, client, username, password);
            && (v.outcome.Accepted? <==>
                  ActiveAsRead(variant, row) && HashFor(env, password, row.salt) == row.password && !row.ban.banned)
            && (v.outcome.Accepted? ==> v.outcome.oid == PackOid(row.accountId, env.databaseId))
            && (v.outcome.Accepted? ==> forall i :: 0 <= i < |v.effects| ==> !v.effects[i].SendError?)
  {
    LookupFindsRow(variant, env, st, username, row);
  }

  /** Validation of an existing username is the gate chain run on the row's
      refreshed object with the row's hash. */
  lemma ValidationOfExistingRow(variant: Variant, env: Env, draws: Draws, st: State, client: bool,
                                username: string, password: string, row: Row)
    requires FirstMatch(st.db.accounts, ByName(username)) == Some(row)
    requires Serves(env, st.broker, row)
    ensures var look := GetAccountByQuery(env.databaseId, st.db, st.broker, UsernameQuery(variant, username), "", true);
            var oid := PackOid(row.accountId, env.databaseId);
            && oid in look.broker.objects
            && look.broker.objects[oid].active == ActiveAsRead(variant, row)
            && look.broker.objects[oid].salt == row.salt
            && look.broker.objects[oid].ban == row.ban
            && ValidateWith(variant, env, draws, st, client, username, password)
               == CheckAccount(env, draws, State(st.db, look.broker), client, username, password, oid, row.password, [])
  {
    LookupFindsRow(variant, env, st, username, row);
  }

  /** The gate chain issues the migration exactly for an active legacy account
      whose SHA-1 hash matched, and the UPDATE is then its first effect. */
  lemma CheckAccountMigrates(env: Env, draws: Draws, st: State, client: bool, username: string,
                             password: string, oid: Oid, passwordStored: string)
    requires oid in st.broker.objects
    ensures var v := CheckAccount(env, draws, st, client, username, password, oid, passwordStored, []);
            var acct := st.broker.objects[oid];
            && (MigrationIssued(v.effects) <==>
                  acct.active && acct.salt == "" && env.sha1(password) == passwordStored)
            && (MigrationIssued(v.effects) ==>
                  v.effects[0] == Exec(UpdatePassword(username, SaltedHash(env, password, draws.migrationSalt),
                                                      draws.migrationSalt), draws.migrationCommits)
                  && v.st.db == UpdateHash(env, draws.migrationSalt, draws.migrationCommits, st.db, username, password).db)
            && (!MigrationIssued(v.effects) ==> v.st.db == st.db)
  {
    var v := CheckAccount(env, draws, st, client, username, password, oid, passwordStored, []);
    var acct := st.broker.objects[oid];
    if acct.active && acct.salt == "" && env.sha1(password) == passwordStored {
      assert v.effects[0].Exec? && v.effects[0].stmt.UpdatePassword?;
    } else {
      assert forall i :: 0 <= i < |v.effects| ==> v.effects[i].SendError?;
    }
  }

  /** The migration UPDATE is issued exactly when the salt is empty and the legacy
      hash matched; when it commits, the username's row carries the new salt and a
      hash the same password verifies against. */
  lemma MigrationExactlyWhenLegacyMatch(variant: Variant, env: Env, draws: Draws, st: State, client: bool,
                                        username: string, password: string, row: Row)
    requires FirstMatch(st.db.accounts, ByName(username)) == Some(row)
    requires Serves(env, st.broker, row)
    ensures var v := ValidateWith(variant, env, draws, st, client, username, password);
            && (MigrationIssued(v.effects) <==>
                  ActiveAsRead(variant, row) && row.salt == "" && env.sha1(password) == row.password)
            && (MigrationIssued(v.effects) && draws.migrationCommits ==>
                  && FirstMatch(v.st.db.accounts, ByName(username))
                     == Some(Migrated(row, SaltedHash(env, password, draws.migrationSalt), draws.migrationSalt))
                  && (draws.migrationSalt != "" ==>
                        HashFor(env, password, draws.migrationSalt) == SaltedHash(env, password, draws.migrationSalt)))
            && (MigrationIssued(v.effects) && !draws.migrationCommits ==> v.st.db == st.db)
            && (!MigrationIssued(v.effects) ==> v.st.db == st.db)
  {
    ValidationOfExistingRow(variant, env, draws, st, client, username, password, row);
    var look := GetAccountByQuery(env.databaseId, st.db, st.broker, UsernameQuery(variant, username), "", true);
    var oid := PackOid(row.accountId, env.databaseId);
    CheckAccountMigrates(env, draws, State(st.db, look.broker), client, username, password, oid, row.password);
    if draws.migrationCommits {
      FirstMatchAfterUpdate(st.db.accounts, username, SaltedHash(env, password, draws.migrationSalt), draws.migrationSalt);
    }
  }

  /** An active account whose hash matched but which is banned is rejected with
      the remaining ban time and the recorded reason. */
  lemma CheckAccountBanned(env: Env, draws: Draws, st: State, client: bool, username: string,
                           password: string, oid: Oid, passwordStored: string)
    requires oid in st.broker.objects
    requires st.broker.objects[oid].active
    requires passwordStored == HashFor(env, password, st.broker.objects[oid].salt)
    requires st.broker.objects[oid].ban.banned
    ensures var ban := st.broker.objects[oid].ban;
            var v := CheckAccount(env, draws, st, client, username, password, oid, passwordStored, []);
            && v.outcome == Rejected(BannedTitle, BanNotice(ban.expires - env.now, ban.reason))
            && (client ==> v.effects[|v.effects| - 1] == SendError(BannedTitle, BanNotice(ban.expires - env.now, ban.reason)))
  {
  }

  /** Migration runs before the ban check: a banned legacy account is rejected
      with the ban breakdown, yet its hash is migrated first. */
  lemma BannedLegacyAccountStillMigrated(variant: Variant, env: Env, draws: Draws, st: State, client: bool,
                                         username: string, password: string, row: Row)
    requires FirstMatch(st.db.accounts, ByName(username)) == Some(row)
    requires Serves(env, st.broker, row)
    requires ActiveAsRead(variant, row) && row.salt == "" && env.sha1(password) == row.password
    requires row.ban.banned
    ensures var v := ValidateWith(variant, env, draws, st, client, username, password);
            && v.outcome == Rejected(BannedTitle, BanNotice(row.ban.expires - env.now, row.ban.reason))
            && v.effects[0] == Exec(UpdatePassword(username, SaltedHash(env, password, draws.migrationSalt),
                                                   draws.migrationSalt), draws.migrationCommits)
  {
    var look := GetAccountByQuery(env.databaseId, st.db, st.broker, UsernameQuery(variant, username), "", true);
    var oid := PackOid(row.accountId, env.databaseId);
    var st1 := State(st.db, look.broker);
    var v := CheckAccount(env, draws, st1, client, username, password, oid, row.password, []);
    assert oid in st1.broker.objects && st1.broker.objects[oid].ban == row.ban
           && st1.broker.objects[oid].active && st1.broker.objects[oid].salt == ""
           && ValidateWith(variant, env, draws, st, client, username, password) == v by {
      ValidationOfExistingRow(variant, env, draws, st, client, username, password, row);
    }
    assert v.effects[0] == Exec(UpdatePassword(username, SaltedHash(env, password, draws.migrationSalt),
                                               draws.migrationSalt), draws.migrationCommits) by {
      CheckAccountMigrates(env, draws, st1, client, username, password, oid, row.password);
    }
    CheckAccountBanned(env, draws, st1, client, username, password, oid, row.password);
  }

  /** After a legacy login whose migration committed, the same password logs in
      again through the salted scheme, and no second migration happens. */
  lemma LegacyThenSaltedLogin(variant: Variant, env: Env, draws1: Draws, draws2: Draws, st: State, client: bool,
                              username: string, password: string, row: Row)
    requires FirstMatch(st.db.accounts, ByName(username)) == Some(row)
    requires Serves(env, st.broker, row)
    requires ActiveAsRead(variant, row) && !row.ban.banned
    requires row.salt == "" && env.sha1(password) == row.password
    requires draws1.migrationCommits && draws1.migrationSalt != ""
    ensures var v1 := ValidateWith(variant, env, draws1, st, client, username, password);
            var v2 := ValidateWith(variant, env, draws2, v1.st, client, username, password);
            && v1.outcome.Accepted?
            && v2.outcome == v1.outcome
            && v2.st.db == v1.st.db
            && !MigrationIssued(v2.effects)
  {
    ExistingAccountAcceptedIff(variant, env, draws1, st, client, username, password, row);
    MigrationExactlyWhenLegacyMatch(variant, env, draws1, st, client, username, password, row);
    var v1 := ValidateWith(variant, env, draws1, st, client, username, password);
    var row2 := Migrated(row, SaltedHash(env, password, draws1.migrationSalt), draws1.migrationSalt);
    assert MigrationIssued(v1.effects) by {
      assert v1.effects[0].Exec? && v1.effects[0].stmt.UpdatePassword?;
    }
    assert FirstMatch(v1.st.db.accounts, ByName(username)) == Some(row2);
    assert Serves(env, v1.st.broker, row2);
    assert ActiveAsRead(variant, row2) == ActiveAsRead(variant, row);
    ExistingAccountAcceptedIff(variant, env, draws2, v1.st, client, username, password, row2);
    MigrationExactlyWhenLegacyMatch(variant, env, draws2, v1.st, client, username, password, row2);
  }

  // ---------------------------------------------------------------------------
  // The findings: each as written, and corrected.
  // ---------------------------------------------------------------------------

  /** As written, the username query's column 0 is `a.account_id`, so a row whose
      `active` column is false but whose id is non-zero logs in. */
  lemma InactiveRowAcceptedAsWritten(env: Env, draws: Draws, st: State, client: bool,
                                     username: string, password: string, row: Row)
    requires FirstMatch(st.db.accounts, ByName(username)) == Some(row)
    requires Serves(env, st.broker, row)
    requires !row.active && row.accountId != 0
    requires HashFor(env, password, row.salt) == row.password && !row.ban.banned
    ensures ValidateAccountCredentials(env, draws, st, client, username, password).outcome
            == Accepted(PackOid(row.accountId, env.databaseId))
  {
    ExistingAccountAcceptedIff(AsWritten, env, draws, st, client, username, password, row);
  }

  /** Corrected, a row whose `active` column is false is always rejected. */
  lemma InactiveRowRejectedCorrected(env: Env, draws: Draws, st: State, client: bool,
                                     username: string, password: string, row: Row)
    requires FirstMatch(st.db.accounts, ByName(username)) == Some(row)
    requires Serves(env, st.broker, row)
    requires !row.active
    ensures ValidateAccountCredentialsCorrected(env, draws, st, client, username, password).outcome
            == Rejected(InactiveTitle(env), Text(InactiveText(env)))
  {
    InactiveRejectedFirst(Corrected, env, draws, st, client, username, password, row);
  }

  /** Corrected, an existing username is accepted only when its row's `active`
      column is set; as written, only when its account id is non-zero. */
  lemma AcceptedRowReadsActive(variant: Variant, env: Env, draws: Draws, st: State, client: bool,
                               username: string, password: string, row: Row)
    requires FirstMatch(st.db.accounts, ByName(username)) == Some(row)
    requires Serves(env, st.broker, row)
    requires ValidateWith(variant, env, draws, st, client, username, password).outcome.Accepted?
    ensures variant == Corrected ==> row.active
    ensures variant == AsWritten ==> row.accountId != 0
  {
    ExistingAccountAcceptedIff(variant, env, draws, st, client, username, password, row);
  }

  /** As written, a failed INSERT during auto-registration reaches the active
      check with a null account. */
  lemma FailedCreationDereferencesNull(env: Env, draws: Draws, st: State,
                                       username: string, password: string)
    requires FirstMatch(st.db.accounts, ByName(username)).None?
    requires env.autoRegistration && draws.insertedId.None?
    ensures ValidateAccountCredentials(env, draws, st, true, username, password).outcome == NullDereference
  {
  }

  /** Corrected, the same case returns null: no crash, no message, nothing written. */
  lemma FailedCreationAbortsCorrected(env: Env, draws: Draws, st: State,
                                      username: string, password: string)
    requires FirstMatch(st.db.accounts, ByName(username)).None?
    requires env.autoRegistration && draws.insertedId.None?
    ensures var v := ValidateAccountCredentialsCorrected(env, draws, st, true, username, password);
            && v.outcome == Aborted
            && v.st == st
            && forall i :: 0 <= i < |v.effects| ==> !v.effects[i].SendError?
  {
  }
}

=== FILE: login.dfy ===
/** `loginAccount`: the entry point of a login attempt. The username and password
    are escaped, the client version is checked, the credentials are validated, and
    an accepted account is handed to the session authority for approval; its
    verdict comes back through `Sessions.OnApproval`. */
module Login {
  import opened Common
  import opened ObjectIds
  import opened AccountTable
  import opened AccountCache
  import opened Credentials
  import Sessions

  const VersionMismatchText :=
    "The client you are attempting to connect with does not match that required by the server."

  /** The request `approveNewSession` sends: the client's IP, the account id, and
      the broker object the continuation captures. */
  datatype ApprovalRequest = ApprovalRequest(ip: string, accountId: AccountId, oid: Oid)

  /** A login attempt up to the approval request. `outcome` is None when the
      version check stopped the attempt before validation. */
  datatype Attempt = Attempt(
    outcome: Option<Outcome>,
    st: State,
    effects: seq<Effect>,
    approval: Option<ApprovalRequest>)

  /** `loginAccount` for a live client, whose IP is `ip`, with validation as
      written or corrected. */
  function LoginAccount(variant: Variant, env: Env, draws: Draws, st: State, username: string, password: string,
                        version: string, ip: string): (r: Attempt)
    // A client of the wrong version gets one error and nothing else happens.
    ensures !env.versionAccepted(version) ==>
              r == Attempt(None, st, [SendError(LoginErrorTitle, Text(VersionMismatchText))], None)
    ensures env.versionAccepted(version) ==> r.outcome.Some?
    // Approval is requested exactly for an accepted account, and for that account.
    ensures r.approval.Some? <==> r.outcome.Some? && r.outcome.value.Accepted?
    ensures r.approval.Some? ==> && r.approval.value.oid == r.outcome.value.oid
                                 && r.approval.value.oid in r.st.broker.objects
                                 && r.approval.value.accountId == r.st.broker.objects[r.approval.value.oid].accountId
                                 && r.approval.value.ip == ip
                                 && !r.st.broker.objects[r.approval.value.oid].ban.banned
  {
    var user := env.escape(username);
    var pass := env.escape(password);
    if !env.versionAccepted(version) then
      Attempt(None, st, [SendError(LoginErrorTitle, Text(VersionMismatchText))], None)
    else
      var v := ValidateWith(variant, env, draws, st, true, user, pass);
      match v.outcome
      case Accepted(oid) =>
        Attempt(Some(v.outcome), v.st, v.effects, Some(ApprovalRequest(ip, v.st.broker.objects[oid].accountId, oid)))
      case _ =>
        Attempt(Some(v.outcome), v.st, v.effects, None)
  }

  /** For a username whose escaped form names an existing row, approval is
      requested exactly when the row reads as active (as written: its account id
      is non-zero; corrected: its `active` column is set), the hash of the escaped password under the
      row's salt matches the stored hash, and the row is not banned; the request
      carries the row's account id. */
  lemma LoginOfExistingAccount(variant: Variant, env: Env, draws: Draws, st: State, username: string, password: string,
                               version: string, ip: string, row: Row)
    requires env.versionAccepted(version)
    requires FirstMatch(st.db.accounts, ByName(env.escape(username))) == Some(row)
    requires Serves(env, st.broker, row)
    ensures var r := LoginAccount(variant, env, draws, st, username, password, version, ip);
            && (r.approval.Some? <==>
                  ActiveAsRead(variant, row) && HashFor(env, env.escape(password), row.salt) == row.password && !row.ban.banned)
            && (r.approval.Some? ==> r.approval.value == ApprovalRequest(ip, row.accountId, PackOid(row.accountId, env.databaseId)))
  {
    var user := env.escape(username);
    var pass := env.escape(password);
    ExistingAccountAcceptedIff(variant, env, draws, st, true, user, pass, row);
    ValidationOfExistingRow(variant, env, draws, st, true, user, pass, row);
    LookupFindsRow(variant, env, st, user, row);
  }

  /** The whole flow for an existing account: a login that requests approval,
      followed by an allowing verdict while client and account are still set,
      leaves a session row for the account with the new session id and sends the
      token first. */
  lemma ApprovedLoginOpensSession(variant: Variant, env: Env, draws: Draws, st: State, username: string, password: string,
                                  version: string, ip: string, result: Sessions.ApprovalResult,
                                  inp: Sessions.IssueInputs)
    requires result.allowed && !result.temporaryFailure && inp.sessionCommits
    requires LoginAccount(variant, env, draws, st, username, password, version, ip).approval.Some?
    ensures var r := LoginAccount(variant, env, draws, st, username, password, version, ip);
            var req := r.approval.value;
            var done := Sessions.OnApproval(result, true, Some(r.st.broker.objects[req.oid]), r.st.db, inp);
            && done.db.sessions[SessionKey(req.accountId)]
               == SessionRow(inp.sessionId, inp.ip, inp.now + Sessions.SessionLifetime)
            && done.db.accounts == r.st.db.accounts
            && done.effects[0] == SendToken(req.accountId, inp.sessionId)
  {
  }
}

=== FILE: object_ids.dfy ===
/** The synthetic object id under which an account lives in the object broker:
    the account id in the low bits, the id of the "accounts" object database in
    the top 16 bits (AccountManager.cpp, `accountID | (databaseID << 48)`). */
module ObjectIds {
  import opened Common

  /** The broker key. Wrapped in a datatype: Dafny maps keyed by a bare bit-vector
      type lose the `m[k := v][k] == v` fact. */
  datatype Oid = Oid(bits: bv64)

  const LowMask: bv64 := 0xFFFF_FFFF_FFFF

  /** `accountID | (databaseID << 48)` on uint64: the shift drops every bit of the
      database id above the sixteenth. */
  function PackOid(accountId: AccountId, databaseId: bv64): (oid: Oid)
    ensures oid.bits & LowMask == accountId as bv64
    ensures oid.bits >> 48 == databaseId & 0xFFFF
  {
    Oid((accountId as bv64) | (databaseId << 48))
  }

  /** The account id stored in the low 48 bits of an oid. */
  function AccountIdOf(oid: Oid): (id: AccountId)
    requires oid.bits & LowMask < 0x1_0000_0000
    ensures id as bv64 == oid.bits & LowMask
  {
    (oid.bits & LowMask) as bv32
  }

  /** Unpacking recovers the account id. */
  lemma UnpackPack(accountId: AccountId, databaseId: bv64)
    ensures AccountIdOf(PackOid(accountId, databaseId)) == accountId
  {
  }

  /** With a database id below 2^16, the bitwise OR is plain 64-bit addition of
      the account id and databaseID * 2^48, and that addition does not wrap. */
  lemma PackIsSum(accountId: AccountId, databaseId: bv64)
    requires databaseId < 0x1_0000
    ensures PackOid(accountId, databaseId).bits == accountId as bv64 + databaseId * 0x1_0000_0000_0000
    ensures PackOid(accountId, databaseId).bits >= databaseId * 0x1_0000_0000_0000
  {
  }

  /** Within one database id, distinct accounts get distinct oids. */
  lemma PackInjective(a: AccountId, b: AccountId, databaseId: bv64)
    ensures PackOid(a, databaseId) == PackOid(b, databaseId) <==> a == b
  {
    if PackOid(a, databaseId) == PackOid(b, databaseId) {
      UnpackPack(a, databaseId);
      UnpackPack(b, databaseId);
    }
  }

  /** Only the low 16 bits of the database id take part in the oid. */
  lemma PackIgnoresHighDatabaseBits(accountId: AccountId, d1: bv64, d2: bv64)
    requires d1 & 0xFFFF == d2 & 0xFFFF
    ensures PackOid(accountId, d1) == PackOid(accountId, d2)
  {
  }
}

=== FILE: session.dfy ===
/** Session issuance (`loginApprovedAccount`) and the continuation the session
    authority calls back with its verdict (the lambda in `loginAccount`). Both are
    pure functions from the database and their inputs to the database afterwards
    and the trace of effects. */
module Sessions {
  import opened Common
  import opened AccountCache

  /** `ADDTIME(NOW(), '00:15')`: sessions expire fifteen minutes after issuance. */
  const SessionLifetime := 15 * 60

  /** What one issuance draws and learns: the random session id, the client's IP,
      the database clock, and whether each of the two statements commits. */
  datatype IssueInputs = IssueInputs(
    sessionId: string,
    ip: string,
    now: int,
    sessionCommits: bool,
    logCommits: bool)

  datatype Issuance = Issuance(db: Db, effects: seq<Effect>)

  /** The messages that reach the client. */
  predicate IsClientMessage(e: Effect) {
    e.SendError? || e.SendToken? || e.SendEnumCluster? || e.SendClusterStatus? || e.SendEnumerateCharacterId?
  }

  /** The client-bound messages of a trace, in order. */
  function ClientMessages(effects: seq<Effect>): (m: seq<Effect>)
    ensures |m| <= |effects|
    ensures forall i :: 0 <= i < |m| ==> IsClientMessage(m[i])
    decreases |effects|
  {
    if |effects| == 0 then []
    else (if IsClientMessage(effects[0]) then [effects[0]] else []) + ClientMessages(effects[1..])
  }

  lemma {:induction false} ClientMessagesAppend(a: seq<Effect>, b: seq<Effect>)
    ensures ClientMessages(a + b) == ClientMessages(a) + ClientMessages(b)
    decreases |a|
  {
    if |a| > 0 {
      assert (a + b)[0] == a[0];
      assert (a + b)[1..] == a[1..] + b;
      ClientMessagesAppend(a[1..], b);
    } else {
      assert a + b == b;
    }
  }

  /** The statements of session issuance and their outcome: the session REPLACE,
      then, only if it did not throw, the account_log INSERT; a throw is logged. */
  function SessionWrites(db: Db, id: AccountId, inp: IssueInputs): (r: Issuance)
    ensures r.db.accounts == db.accounts && r.db.defaults == db.defaults
    ensures 2 <= |r.effects| <= 3
    ensures r.effects[0] == Exec(ReplaceSession(id, inp.sessionId, inp.ip), inp.sessionCommits)
    ensures ClientMessages(r.effects) == []
    // The session row for the account is replaced, never duplicated.
    ensures inp.sessionCommits ==>
              r.db.sessions == db.sessions[SessionKey(id) := SessionRow(inp.sessionId, inp.ip, inp.now + SessionLifetime)]
    ensures !inp.sessionCommits ==> r.db == db && |r.effects| == 2 && r.effects[1] == LogError
    // After a committed REPLACE comes the log INSERT for the same account and IP,
    // and a failure of it is logged.
    ensures inp.sessionCommits ==>
              && r.effects[1] == Exec(InsertLogEntry(id, inp.ip), inp.logCommits)
              && r.effects[2..] == if inp.logCommits then [] else [LogError]
    ensures (exists i :: 0 <= i < |r.effects| && r.effects[i].Exec? && r.effects[i].stmt.InsertLogEntry?)
            <==> inp.sessionCommits
    ensures r.db.accountLog == if inp.sessionCommits && inp.logCommits
                               then db.accountLog + [LogRow(id, inp.ip, inp.now)] else db.accountLog
  {
    var replace := ReplaceSession(id, inp.sessionId, inp.ip);
    if !inp.sessionCommits then
      Issuance(db, [Exec(replace, false), LogError])
    else
      var db1 := db.(sessions := db.sessions[SessionKey(id) := SessionRow(inp.sessionId, inp.ip, inp.now + SessionLifetime)]);
      var insert := InsertLogEntry(id, inp.ip);
      if inp.logCommits then
        Issuance(db1.(accountLog := db1.accountLog + [LogRow(id, inp.ip, inp.now)]), [Exec(replace, true), Exec(insert, true)])
      else
        Issuance(db1, [Exec(replace, true), Exec(insert, false), LogError])
  }

  /** `loginApprovedAccount`: send the token, record the account id on the
      connection, notify the session authority, write the session and the log
      entry, then send the cluster list, the cluster status and the character
      enumeration. */
  function LoginApprovedAccount(db: Db, account: Account, inp: IssueInputs): (r: Issuance)
    ensures r.db.accounts == db.accounts
    ensures |r.effects| >= 8
    ensures r.effects[..3] == [SendToken(account.accountId, inp.sessionId), SetAccountId(account.accountId),
                               NotifySessionStart(inp.ip, account.accountId)]
    ensures r.effects[|r.effects| - 3..] == [SendEnumCluster(account.accountId), SendClusterStatus(account.accountId),
                                            SendEnumerateCharacterId(account.accountId)]
    ensures SessionKey(account.accountId) in r.db.sessions <==> inp.sessionCommits || SessionKey(account.accountId) in db.sessions
  {
    var id := account.accountId;
    var w := SessionWrites(db, id, inp);
    Issuance(w.db, [SendToken(id, inp.sessionId), SetAccountId(id), NotifySessionStart(inp.ip, id)]
                   + w.effects
                   + [SendEnumCluster(id), SendClusterStatus(id), SendEnumerateCharacterId(id)])
  }

  lemma ClientMessagesOfOne(e: Effect)
    ensures ClientMessages([e]) == if IsClientMessage(e) then [e] else []
  {
    assert [e][1..] == [];
  }

  lemma ClientMessagesOfThree(a: Effect, b: Effect, c: Effect)
    ensures ClientMessages([a, b, c]) == ClientMessages([a]) + ClientMessages([b]) + ClientMessages([c])
  {
    assert [a, b, c] == [a] + [b] + [c];
    ClientMessagesAppend([a] + [b], [c]);
    ClientMessagesAppend([a], [b]);
  }

  /** The client-bound messages around a middle part that sends nothing. */
  lemma FramedMessages(id: AccountId, sessionId: string, ip: string, middle: seq<Effect>)
    requires ClientMessages(middle) == []
    ensures ClientMessages([SendToken(id, sessionId), SetAccountId(id), NotifySessionStart(ip, id)] + middle
                           + [SendEnumCluster(id), SendClusterStatus(id), SendEnumerateCharacterId(id)])
            == [SendToken(id, sessionId), SendEnumCluster(id), SendClusterStatus(id), SendEnumerateCharacterId(id)]
  {
    var pre := [SendToken(id, sessionId), SetAccountId(id), NotifySessionStart(ip, id)];
    var post := [SendEnumCluster(id), SendClusterStatus(id), SendEnumerateCharacterId(id)];
    ClientMessagesAppend(pre + middle, post);
    ClientMessagesAppend(pre, middle);
    assert ClientMessages(pre) == [SendToken(id, sessionId)] by {
      ClientMessagesOfThree(pre[0], pre[1], pre[2]);
      ClientMessagesOfOne(pre[0]);
      ClientMessagesOfOne(pre[1]);
      ClientMessagesOfOne(pre[2]);
    }
    assert ClientMessages(post) == post by {
      ClientMessagesOfThree(post[0], post[1], post[2]);
      ClientMessagesOfOne(post[0]);
      ClientMessagesOfOne(post[1]);
      ClientMessagesOfOne(post[2]);
    }
  }

  /** The client sees the token, the cluster list, the cluster status and the
      character enumeration, in that order, whatever the statements did. */
  lemma IssuanceMessageOrder(db: Db, account: Account, inp: IssueInputs)
    ensures var id := account.accountId;
            ClientMessages(LoginApprovedAccount(db, account, inp).effects)
            == [SendToken(id, inp.sessionId), SendEnumCluster(id), SendClusterStatus(id), SendEnumerateCharacterId(id)]
  {
    var w := SessionWrites(db, account.accountId, inp);
    FramedMessages(account.accountId, inp.sessionId, inp.ip, w.effects);
  }

  /** A failing session REPLACE skips the account_log INSERT: no log row, no
      INSERT in the trace, and the database is as before. */
  lemma FailedReplaceSkipsLog(db: Db, account: Account, inp: IssueInputs)
    requires !inp.sessionCommits
    ensures var r := LoginApprovedAccount(db, account, inp);
            && r.db == db
            && forall i :: 0 <= i < |r.effects| ==> !(r.effects[i].Exec? && r.effects[i].stmt.InsertLogEntry?)
  {
    var r := LoginApprovedAccount(db, account, inp);
    var w := SessionWrites(db, account.accountId, inp);
    assert r.effects == [SendToken(account.accountId, inp.sessionId), SetAccountId(account.accountId),
                         NotifySessionStart(inp.ip, account.accountId)] + w.effects
                        + [SendEnumCluster(account.accountId), SendClusterStatus(account.accountId),
                           SendEnumerateCharacterId(account.accountId)];
  }

  /** Two successful issuances for one account leave exactly one session row for
      it, the second; other accounts' sessions are untouched. */
  lemma SecondSessionSupersedes(db: Db, account: Account, first: IssueInputs, second: IssueInputs)
    requires first.sessionCommits && second.sessionCommits
    ensures var r1 := LoginApprovedAccount(db, account, first);
            var r2 := LoginApprovedAccount(r1.db, account, second);
            && r2.db.sessions[SessionKey(account.accountId)]
               == SessionRow(second.sessionId, second.ip, second.now + SessionLifetime)
            && r2.db.sessions.Keys == db.sessions.Keys + {SessionKey(account.accountId)}
            && forall k :: k in db.sessions && k != SessionKey(account.accountId) ==> r2.db.sessions[k] == db.sessions[k]
  {
  }

  /** The verdict of the session authority. `message` is the text
      `getMessage(true)` renders. */
  datatype ApprovalResult = ApprovalResult(allowed: bool, temporaryFailure: bool, title: string, message: string)

  /** The continuation run when the verdict arrives. `client` and `account` say
      whether the captured handles are still set. */
  function OnApproval(result: ApprovalResult, client: bool, account: Option<Account>, db: Db,
                      inp: IssueInputs): (r: Issuance)
    // A temporary failure is logged first and decides nothing by itself.
    ensures result.temporaryFailure ==> |r.effects| >= 1 && r.effects[0] == LogError
    // A cleared client or account handle does nothing beyond that log line.
    ensures !client || account.None? ==> r.db == db && r.effects == if result.temporaryFailure then [LogError] else []
    ensures client && account.Some? && !result.allowed ==>
              r.db == db && ClientMessages(r.effects) == [SendError(result.title, Text(result.message))]
    ensures client && account.Some? && result.allowed ==>
              |r.effects| >= 8 &&
              r.effects[if result.temporaryFailure then 1 else 0] == SendToken(account.value.accountId, inp.sessionId)
  {
    var logged := if result.temporaryFailure then [LogError] else [];
    if !client || account.None? then Issuance(db, logged)
    else if !result.allowed then Issuance(db, logged + [SendError(result.title, Text(result.message))])
    else
      var issued := LoginApprovedAccount(db, account.value, inp);
      Issuance(issued.db, logged + issued.effects)
  }

  /** The temporary-failure flag adds one log line in front and changes nothing else. */
  lemma TemporaryFailureOnlyLogs(result: ApprovalResult, client: bool, account: Option<Account>, db: Db,
                                 inp: IssueInputs)
    ensures var failed := OnApproval(result.(temporaryFailure := true), client, account, db, inp);
            var clean := OnApproval(result.(temporaryFailure := false), client, account, db, inp);
            failed.db == clean.db && failed.effects == [LogError] + clean.effects
  {
  }

  /** A denial sends the authority's title and message and nothing else. */
  lemma DenialSendsOnlyTheVerdict(result: ApprovalResult, account: Account, db: Db, inp: IssueInputs)
    requires !result.allowed && !result.temporaryFailure
    ensures OnApproval(result, true, Some(account), db, inp) == Issuance(db, [SendError(result.title, Text(result.message))])
  {
  }

  /** With both handles set and the verdict allowing, the continuation is the
      session issuance. */
  lemma ApprovalIssuesSession(result: ApprovalResult, account: Account, db: Db, inp: IssueInputs)
    requires result.allowed
    ensures var r := OnApproval(result, true, Some(account), db, inp);
            var issued := LoginApprovedAccount(db, account, inp);
            && r.db == issued.db
            && ClientMessages(r.effects) == ClientMessages(issued.effects)
  {
    var logged := if result.temporaryFailure then [LogError] else [];
    ClientMessagesAppend(logged, LoginApprovedAccount(db, account, inp).effects);
  }
}
